=== FILE: README.md ===
# Competitive-programming stats card, modelled in Dafny

The system collects a user's statistics from five competitive-programming
sites: Codeforces, LeetCode, CodeChef, AtCoder and CSES. It turns each site's
reply into one normalised statistics record and gathers the five records
into a map keyed by platform. From that map it computes the numbers shown on
a dark-themed card: the total solved count and the Codeforces / LeetCode /
others split. It then patches the card into a section of a README document.

This project models the core of that pipeline as pure Dafny functions and
proves properties of them:

- `records.dfy` (`StatRecords`): the record, its `"N/A"` placeholder, the platform keys and labels, the configured usernames, and the error record every extractor falls back to.
- `pytext.dfy` (`PyText`): the parts of Python's string behaviour the extractors rely on.
  - `in`, `split(c)` and `split()`, `strip()`, `int()` and `str()` on integers.
  - Their round trips: split after join, and `int(str(n))`.
- `rounding.dfy` (`Rounding`): Python 3's `round`, which rounds to the nearest integer and a tie to the even one, applied to exact rationals.
- `codeforces.dfy`, `leetcode.dfy`, `codechef.dfy`, `atcoder.dfy`, `cses.dfy`: the five extractors' `get_stats` and `_get_error_stats`.
  - Each takes the already-fetched and already-decoded reply.
  - A transport, HTTP or decoding failure is a variant of the reply datatype.
- `aggregator.dfy` (`Aggregator`): `collect_stats`, in which an extractor that raises is replaced by a fallback record.
- `distribution.dfy` (`Distribution`): the numeric part of `generate_dark_theme_markdown`, covering the per-platform defaults, the total and the three percentages.
- `readme_patch.dfy` (`ReadmePatch`): `update_readme_section`, with its three outcomes of create, replace and append.
  - The replace outcome is the regular-expression substitution of `(header.*?)(?=^#|\Z)` under MULTILINE and DOTALL, written out as a left-to-right scan.

Behaviours of the code that the model keeps, and proves, as they are:

- An AtCoder row whose label merely contains "Rating" sets the rating. So a "Highest Rating" row after the "Rating" row overrides it: `AtCoderExtractor.HighestRatingOverrides`.
- CodeChef's solved count is an approximation: the number of comma-separated pieces, or 0 without a comma. It is never 1: `CodeChefExtractor.ProblemsCountNeverOne`.
- A replaced section ends where the next line starting with `#` begins, at any heading level. The new text does not end with a line break of its own, so that heading lands on the last line of the new text: `ReadmePatch.ReplaceScenario`.
- Creating the document writes the text followed by a line break. Appending writes a line break, the text and a line break.
- The AtCoder solved count reads the text between the parentheses without stripping it. Python's `int` skips surrounding whitespace but not the information separators U+001C to U+001F, which `strip()` and `split()` do treat as whitespace. So `(\x1c5)` counts 0: `AtCoderExtractor.ParenSeparatorCountsZero`.
- The LeetCode fallback built by `collect_stats` has no difficulty counts and no acceptance rate, while LeetCode's own error record has them, all zero.

## Model

| member | source | states |
|---|---|---|
| StatRecords.KeysAndLabelsDistinct | src/dark_theme_updater.py:43-136 | the five map keys and the five record labels each name one platform, so no entry overwrites another |
| StatRecords.PlatformOf | src/config.py:6-27 | every configured key is the key of some platform |
| StatRecords.ErrorRecord | src/extractors/leetcode.py:118-138 | the error record has status Error, rating/max rating/rank "N/A", 0 solved, the user and the time; only LeetCode's carries the extra zero fields |
| Rounding.RoundHalfEven | src/dark_theme_updater.py:182-183 | the result is within half a unit of n/d, and an exact tie gives the even neighbour |
| Rounding.RoundHalfEvenUnique | src/dark_theme_updater.py:182-183 | those two properties determine the rounded value: no other integer has both |
| Distribution.Denominator | src/dark_theme_updater.py:181 | the divisor is the total when the total is at least 1, and 1 otherwise |
| Distribution.Percent | src/dark_theme_updater.py:182-183 | a share is the nearest integer to part/total × 100, the even one on an exact tie |
| Distribution.Summarize | src/dark_theme_updater.py:151-184 | every displayed rating, rank, solved count and LeetCode difficulty count is its platform's lookup with the fallback; the total is the sum of the five solved counts; the Codeforces and LeetCode shares are `Percent` of their own counts over the never-below-1 total; the three shares add up to 100 |
| Distribution.NothingSolvedShares | src/dark_theme_updater.py:177-184 | with nothing solved the split is 0 / 0 / 100 and nothing is divided by zero |
| Distribution.MissingPlatformsDefault | src/dark_theme_updater.py:151-184 | each missing platform, whatever else is present, shows rating and rank "N/A" and 0 solved; a missing Codeforces or LeetCode has a 0 share; LeetCode without difficulty counts shows 0 for each |
| Distribution.ShareInRange | src/dark_theme_updater.py:182-183 | a share of a part between 0 and the whole lies in 0..100 |
| Distribution.TwoSharesFit | src/dark_theme_updater.py:182-184 | with exact half-even rounding of each ratio, two shares whose counts fit in the total never add up to more than 100, so "others" is never negative |
| Distribution.SharesWellFormed | src/dark_theme_updater.py:178-184 | with non-negative counts and exact half-even rounding, all three percentages lie in 0..100 |
| Distribution.TiesOfTwoHundred | src/dark_theme_updater.py:181-184 | 91 and 109 out of 200 are exact ties; the model rounds them to 46 and 54, leaving "others" at 0 |
| CodeforcesExtractor.SolvedKeys | src/extractors/codeforces.py:55-62 | the loop raises exactly when some submission lacks a verdict, or is accepted without its problem fields; otherwise there are at most as many keys as submissions |
| CodeforcesExtractor.SolvedKeysMembers | src/extractors/codeforces.py:55-60 | the solved set holds exactly the `contestId-index` keys of the accepted submissions |
| CodeforcesExtractor.ProblemKeyInjective | src/extractors/codeforces.py:59 | distinct (contest, index) pairs give distinct keys, so the set size counts problems |
| CodeforcesExtractor.RejectedSubmissionIgnored | src/extractors/codeforces.py:57-60 | a judged but not accepted submission, wherever it stands, leaves the solved set unchanged |
| CodeforcesExtractor.SolvedKeysSnoc | src/extractors/codeforces.py:57-60 | the set built front to back equals the set built by adding submissions at the end |
| CodeforcesExtractor.VisitCommutes | src/extractors/codeforces.py:57-60 | the order in which two submissions are looked at does not matter |
| CodeforcesExtractor.ResubmissionCountsOnce | src/extractors/codeforces.py:56-62 | accepting an already-solved problem again does not change the solved set |
| CodeforcesExtractor.AcceptedKeyIn | src/extractors/codeforces.py:57-60 | the key of every accepted submission is in the solved set |
| CodeforcesExtractor.RepeatedAndRejected | src/extractors/codeforces.py:55-62 | an accepted submission repeated around a rejected one, followed by another accepted one, gives exactly those two problems' keys |
| CodeforcesExtractor.TwoDistinctProblems | src/extractors/codeforces.py:55-62 | two accepted submissions of one problem and one of another count as 2 solved |
| CodeforcesExtractor.ProblemsSolved | src/extractors/codeforces.py:51-62 | a non-OK history status counts 0; the count is missing exactly when the status is OK and some submission makes the loop raise; otherwise it lies between 0 and the number of submissions |
| CodeforcesExtractor.GetStats | src/extractors/codeforces.py:34-100 | a failed call, a non-OK user status, an empty user list or a raising submission loop gives the error record; otherwise the rating and max rating default to 0 and the rank to "Unrated", and a non-OK history status counts 0 solved |
| LeetCodeExtractor.Tally | src/extractors/leetcode.py:77-91 | with non-negative counts in the reply, every bucket the loop keeps is non-negative |
| LeetCodeExtractor.LastLabelled | src/extractors/leetcode.py:83-91 | the index of the last entry with a difficulty, or none, and no later entry has it |
| LeetCodeExtractor.TallyLastWins | src/extractors/leetcode.py:78-91 | the loop keeps, per difficulty, the count of the last entry with that difficulty, or 0 |
| LeetCodeExtractor.CountOfSnoc | src/extractors/leetcode.py:83-91 | a new last entry decides its own difficulty's count and leaves the others as they were |
| LeetCodeExtractor.OtherLabelIgnored | src/extractors/leetcode.py:83-91 | an entry whose difficulty is none of All/Easy/Medium/Hard changes nothing, wherever it stands |
| LeetCodeExtractor.SameLastLabelled | src/extractors/leetcode.py:83-91 | removing an entry of another difficulty does not change a difficulty's count |
| LeetCodeExtractor.AllSubmissions | src/extractors/leetcode.py:96 | the summed "All" submissions are 0 when no entry is labelled "All", and non-negative when every entry's submissions are |
| LeetCodeExtractor.AllSubmissionsSingle | src/extractors/leetcode.py:96 | one entry adds its submissions when labelled "All", and nothing otherwise |
| LeetCodeExtractor.AllSubmissionsAppend | src/extractors/leetcode.py:96 | the sum over two runs of entries is the sum of their sums, so with `AllSubmissionsSingle` the result is the sum of the "All" entries' submissions |
| LeetCodeExtractor.AcceptanceTenths | src/extractors/leetcode.py:96-97 | without submissions the rate is 0; otherwise it is the nearest tenth of a percent to solved/submissions |
| LeetCodeExtractor.RankOf | src/extractors/leetcode.py:93 | the rank is "N/A" exactly when the ranking is null or 0 |
| LeetCodeExtractor.GetStats | src/extractors/leetcode.py:65-138 | an error payload or a missing user gives the error record; otherwise the rating and the solved count are the "All" count, the buckets come from the tally, and the acceptance uses the "All" submissions |
| LeetCodeExtractor.AcceptanceInRange | src/extractors/leetcode.py:97 | a solved count between 0 and the submissions gives a rate between 0.0 and 100.0 |
| LeetCodeExtractor.FiftyOfEighty | src/extractors/leetcode.py:76-112 | entries All 50/80 and Easy 30/40 give 50 solved, easy 30, medium and hard 0, and acceptance 62.5 |
| CodeChefExtractor.ProblemsCount | src/extractors/codechef.py:57-60 | the count is the number of commas plus one when there is a comma, else 0 |
| CodeChefExtractor.ProblemsCountNeverOne | src/extractors/codechef.py:60 | the approximate count is never 1 |
| CodeChefExtractor.GetStats | src/extractors/codechef.py:45-95 | a failed fetch or a rating text that is not an integer gives the error record; otherwise a missing rating is "N/A", a missing star is "Unrated", and max rating is "N/A" |
| CodeChefExtractor.RatingRead | src/extractors/codechef.py:46-47 | a rating element holding a number with whitespace around it is read as that number |
| AtCoderExtractor.RatingOf | src/extractors/atcoder.py:60-64 | a rating is a number or "N/A", and a blank value is "N/A" |
| AtCoderExtractor.RatingOfNumber | src/extractors/atcoder.py:62 | a value starting with a number, followed by whitespace or nothing, reads as that number |
| AtCoderExtractor.RatingOfNotNumber | src/extractors/atcoder.py:61-64 | a value whose first word is not an integer, after any whitespace, gives "N/A" |
| AtCoderExtractor.FoldRows | src/extractors/atcoder.py:46-67 | the loop's rating is a number or "N/A", and its rank is always text |
| AtCoderExtractor.RankFromSomeRow | src/extractors/atcoder.py:46-67 | the rank is "Unrated" or the stripped value of a row whose label holds "Class" or "Rank" |
| AtCoderExtractor.LastSetting | src/extractors/atcoder.py:54-67 | the index of the last row that sets a field, and no later row sets it |
| AtCoderExtractor.FoldRowsLastWins | src/extractors/atcoder.py:46-67 | the row loop leaves each field as the last row setting it says, or the initial "N/A" / "Unrated" |
| AtCoderExtractor.RatingAfterSnoc | src/extractors/atcoder.py:60-64 | a new last row decides the rating exactly when its label holds "Rating" |
| AtCoderExtractor.RankAfterSnoc | src/extractors/atcoder.py:66-67 | a new last row decides the rank exactly when its label holds "Class" or "Rank" |
| AtCoderExtractor.NoMatchingRows | src/extractors/atcoder.py:46-67 | rows that set neither field leave rating "N/A" and rank "Unrated" |
| AtCoderExtractor.ShortRowIgnored | src/extractors/atcoder.py:55-56 | a row with fewer than two cells changes nothing, wherever it stands |
| AtCoderExtractor.LastRatingRowWins | src/extractors/atcoder.py:60-64 | a final row labelled with anything holding "Rating" decides the rating |
| AtCoderExtractor.HighestRatingOverrides | src/extractors/atcoder.py:60-64 | a "Highest Rating" row after the "Rating" row puts the highest rating in the rating field |
| AtCoderExtractor.ParenCount | src/extractors/atcoder.py:74-78 | a non-zero count needs both a "(" and a ")" in the link text |
| AtCoderExtractor.ParenCountReads | src/extractors/atcoder.py:70-80 | a link text `a(n)b` with no "(" in `a` counts n, whatever whitespace surrounds it |
| AtCoderExtractor.ParenCountNotNumber | src/extractors/atcoder.py:74-80 | a link text `a(m)b` whose parenthesised text is not an integer counts 0, whatever whitespace surrounds it |
| AtCoderExtractor.ParenSeparatorCountsZero | src/extractors/atcoder.py:74-80 | a link text `a(\x1c n)b` counts 0, because the unstripped text between the parentheses makes `int` raise and the exception is caught |
| AtCoderExtractor.SeparatedNumber | src/extractors/atcoder.py:76-78 | a number behind U+001C holds no parenthesis and does not parse |
| AtCoderExtractor.GetStats | src/extractors/atcoder.py:34-113 | a failed fetch gives the error record; otherwise rating and rank come from the last rows setting them, max rating is "N/A", and the solved count comes from the link text or is 0 |
| CsesExtractor.SolvedCount | src/extractors/cses.py:50-56 | a non-zero count needs "Solved tasks" and a ':' in the content text |
| CsesExtractor.LineCount | src/extractors/cses.py:56 | a non-zero count needs a ':' in the line |
| CsesExtractor.FirstLineWith | src/extractors/cses.py:55 | the index of the first line holding the text, and no earlier line holds it |
| CsesExtractor.MarkerLineFound | src/extractors/cses.py:52-55 | when the text holds "Solved tasks" some line holds it, so the lookup of the first such line never fails |
| CsesExtractor.OccursInPiece | src/extractors/cses.py:55 | a text without line breaks found in the joined lines lies within one line |
| CsesExtractor.NoMarkerNoCount | src/extractors/cses.py:52 | without "Solved tasks" nothing is counted |
| CsesExtractor.SolvedLineRead | src/extractors/cses.py:46-58 | a first marker line `…Solved tasks…: n` counts n, whatever the other lines hold |
| CsesExtractor.FirstMarkerLineDecides | src/extractors/cses.py:52-56 | the first line holding "Solved tasks" alone decides the count, whatever later lines hold |
| CsesExtractor.MalformedFirstMarkerLine | src/extractors/cses.py:55-58 | a first marker line without ':' counts 0, even when a later marker line is well formed |
| CsesExtractor.LineCountNoColon | src/extractors/cses.py:56-58 | a line without ':' counts 0 |
| CsesExtractor.LineCountNotNumber | src/extractors/cses.py:56-58 | a line whose text after the first ':' is not an integer, once stripped, counts 0 |
| CsesExtractor.ValueAfterColon | src/extractors/cses.py:56 | the number after the first ':' is what is read |
| CsesExtractor.GetStats | src/extractors/cses.py:34-91 | a failed fetch gives the error record; otherwise rating, max rating and rank are "N/A", and the solved count is read from the content block or is 0 |
| Aggregator.Fallback | src/dark_theme_updater.py:49-60 | the fallback has the error shape, the configured username and no LeetCode-only fields |
| Aggregator.CollectStats | src/dark_theme_updater.py:34-138 | the map has exactly the five platform keys, each holding its extractor's record, or the fallback when that extractor raised |
| Aggregator.OneFailureIsolated | src/dark_theme_updater.py:43-136 | one extractor raising changes only its own entry, to the fallback |
| Aggregator.EntriesMatchKeys | src/dark_theme_updater.py:41-138 | whatever the replies and whichever calls raise, each key holds a record of its own platform, for the configured user, stamped with the run's time |
| Aggregator.TotalOverRuns | src/dark_theme_updater.py:160-178 | the card's total is the sum of the five runs' solved counts, with raised calls counting 0 |
| Aggregator.AllRaisedCard | src/dark_theme_updater.py:177-184 | when every call raises the card shows 0 solved and a 0 / 0 / 100 split |
| PyText.Find | src/dark_theme_updater.py:279 | the first index where the text occurs, and none before it |
| PyText.Contains | src/extractors/cses.py:52 | `t in s` holds exactly when `t` occurs somewhere in `s` |
| PyText.Split | src/extractors/cses.py:55 | there is one more piece than separators, no piece holds the separator, and joining the pieces gives the text back |
| PyText.SplitJoin | src/extractors/cses.py:55 | splitting pieces that were joined gives the pieces back |
| PyText.Strip | src/extractors/atcoder.py:57-58 | the result is empty exactly when the text is all whitespace, and otherwise starts and ends with non-whitespace |
| PyText.StripPadded | src/extractors/atcoder.py:57-58 | whitespace on either side of a trimmed text is removed and the text itself is kept |
| PyText.StripIdempotent | src/extractors/atcoder.py:57-58 | stripping twice is stripping once |
| PyText.Words | src/extractors/atcoder.py:62 | the words are non-empty, hold no whitespace, and there are none exactly for a blank text |
| PyText.WordsSkipSpaces | src/extractors/atcoder.py:62 | whitespace of any kind and length before a text adds no word |
| PyText.WordsCons | src/extractors/atcoder.py:62 | a non-empty run without whitespace, followed by whitespace or the end, is the first word |
| PyText.WordsJoin | src/extractors/atcoder.py:62 | splitting words joined by single spaces gives the words back |
| PyText.ParseInt | src/extractors/atcoder.py:62 | a text parses exactly when it holds no information separator (U+001C to U+001F) and, once stripped, is an optional sign and one or more ASCII digits; a negative result needs a leading '-' |
| PyText.IntTextNoSeparator | src/extractors/atcoder.py:78 | the text of an integer holds no information separator, so the separator rule never rejects a well-formed numeral |
| PyText.SeparatorRejected | src/extractors/atcoder.py:77-78 | a number behind U+001C does not parse, although stripping would remove the U+001C |
| PyText.ParseTrimmedValue | src/extractors/atcoder.py:62 | digits read as their decimal value; a '+' in front changes nothing and a '-' negates it |
| PyText.DigitsValueLeadingZero | src/extractors/cses.py:56 | a leading zero does not change the value of a run of digits |
| PyText.NonCanonicalNumerals | src/extractors/cses.py:56 | "+7" and "007" read as 7, and "-0" as 0 |
| PyText.IntToString | src/extractors/codeforces.py:59 | `str(n)` is a non-empty integer text that starts with '-' exactly when n is negative |
| PyText.ParseIntOfString | src/extractors/atcoder.py:78 | `int(str(n))` is n |
| PyText.ParseIntPadded | src/extractors/codechef.py:47 | a number with whitespace around it reads as that number |
| PyText.IntToStringInjective | src/extractors/codeforces.py:59 | distinct integers have distinct decimal texts |
| ReadmePatch.SectionEnd | src/dark_theme_updater.py:280 | the lazy match stops at the first end of text, or the first '#' starting a line, at or after the header's end |
| ReadmePatch.ReplaceSections | src/dark_theme_updater.py:281-285 | a text without the header is unchanged; otherwise the text before the first header is kept and the new text stands where the header stood |
| ReadmePatch.SubFromNoHeader | src/dark_theme_updater.py:279-285 | with no header occurrence the text is copied unchanged (`SubFrom` is the left-to-right scan of the substitution; this and the next two lemmas characterise it) |
| ReadmePatch.SubFromKeepsPrefix | src/dark_theme_updater.py:279-285 | the text before the first header is kept and the new text stands where the header stood |
| ReadmePatch.SubFromStep | src/dark_theme_updater.py:279-285 | each match runs from the first header occurrence to the next stop, and scanning resumes after it |
| ReadmePatch.SingleSection | src/dark_theme_updater.py:279-285 | with one section, the result is the text before it, the new text, then everything from the next heading on |
| ReadmePatch.CurrentSectionUnchanged | src/dark_theme_updater.py:279-285 | replacing a single section by its own current text changes nothing |
| ReadmePatch.UpdateReadmeSection | src/dark_theme_updater.py:254-301 | an I/O error returns False and anything else returns True; a missing file is created holding the text and a line break; a document without the header gets a line break, the text and a line break appended; otherwise the result is the substitution `ReplaceSections` of every header section, which keeps the text before the first header and puts the new text after it |
| ReadmePatch.PatchSingleSection | src/dark_theme_updater.py:278-289 | a document with one section is rewritten as the text before the section, the new text, and the rest from the next heading |
| ReadmePatch.CreateScenario | src/dark_theme_updater.py:268-272 | with no file, the text `## Stats\nHello` is written followed by a line break |
| ReadmePatch.ReplaceScenario | src/dark_theme_updater.py:279-285 | `# Intro\nfoo\n` + header + `\nold\n` + `# Footer\nbar` becomes `# Intro\nfoo\n` + new text + `# Footer\nbar` |

## Left out

- HTTP requests, JSON decoding and HTML parsing: each extractor receives the reply already decoded into a datatype. A transport, HTTP or decoding failure is one variant of that datatype. A missing element or key is an `Option`, or, where the source's exception goes straight to the error record (Codeforces `status`, and `result` under an OK status; LeetCode `submitStats`), a failure variant.
- The clock: `datetime.now()` is an opaque `now` string passed in. The card's own date line is not modelled. The source reads the clock once per record; the model uses one `now` for the whole run, so `Aggregator.EntriesMatchKeys` stamps every record with the same time.
- Logging, the template text of the card (`generate_dark_theme_markdown` after line 184), and the command-line entry point.
- Request URLs, headers and the submission-history `count=1000` limit: the history reply is taken as it comes.
- Distribution.Percent: computes Python's `round` on the exact ratio. A binary float that lands just off an exact tie can round the other way.
- LeetCodeExtractor.AcceptanceTenths: keeps the rate as an exact number of tenths of a percent. Python's `round(x, 1)` on the binary float can differ at ties, and the integer 0 returned without submissions is not told apart from 0.0.
- Distribution.TwoSharesFit: holds for the exact ratios only. The source computes `part / total * 100` in binary floating point before `round`, and 91 and 109 out of 200 give 45.5 and 54.50000000000001, so the card would show 46, 55 and "others" -1.
- Distribution.SharesWellFormed: likewise promises 0..100 for "others" under exact rounding only. With the source's float rounding, 91 and 109 out of 200 show "others" as -1, and a 101 total of the two shares is possible.
- PyText.ParseInt: accepts an optional sign and ASCII digits after stripping. Underscores between digits and non-ASCII decimal digits, both of which Python's `int` accepts, are not modelled.
- ReadmePatch.UpdateReadmeSection: requires a non-empty header, because an empty one would need `re.sub`'s rules for empty matches. The only caller passes the fixed header.
- ReadmePatch.UpdateReadmeSection: backslash escapes in the replacement text, which `re.sub` would process, are not modelled. The text is inserted literally.
- ReadmePatch.UpdateReadmeSection: an I/O failure is one flag. What a failed write leaves on disk is not modelled.
- ReadmePatch.UpdateReadmeSection: `existing` is the document as text mode reads it, UTF-8 decoded with universal newlines, so `"\r\n"` and a lone `"\r"` are already `"\n"`. A `#` after a lone `"\r"` in the file therefore starts a line. Writing back in text mode, and any byte-level change from the translation, is not modelled.

=== FILE: aggregator.dfy ===
/**
 `collect_stats`: one call per platform, in a fixed order, each guarded so
 that an extractor that raises is replaced by a fallback record, gathered
 into one map keyed by platform key.
 */
module Aggregator {
  import opened StatRecords
  import Distribution
  import CodeforcesExtractor
  import LeetCodeExtractor
  import CodeChefExtractor
  import AtCoderExtractor
  import CsesExtractor

  /** What one extractor call did: returned a record, or raised. */
  datatype Run = Returned(record: StatRecord) | Raised

  /** The outcome of each of the five extractor calls. */
  datatype Runs = Runs(codeforces: Run, leetcode: Run, codechef: Run, atcoder: Run, cses: Run)

  function RunOf(runs: Runs, p: Platform): Run
  {
    match p
    case Codeforces => runs.codeforces
    case LeetCode => runs.leetcode
    case CodeChef => runs.codechef
    case AtCoder => runs.atcoder
    case Cses => runs.cses
  }

  /** The same outcomes with the one for `p` replaced. */
  function WithRun(runs: Runs, p: Platform, run: Run): (r: Runs)
    ensures RunOf(r, p) == run
    ensures forall q :: q != p ==> RunOf(r, q) == RunOf(runs, q)
  {
    match p
    case Codeforces => runs.(codeforces := run)
    case LeetCode => runs.(leetcode := run)
    case CodeChef => runs.(codechef := run)
    case AtCoder => runs.(atcoder := run)
    case Cses => runs.(cses := run)
  }

  /** The record stored for a platform whose extractor raised: no LeetCode-only fields. */
  function Fallback(p: Platform, now: string): (r: StatRecord)
    ensures IsErrorShape(r) && r.detail.None?
    ensures r.platform == p && r.username == ProfileUsername(p) && r.lastUpdated == now
  {
    StatRecord(p, ProfileUsername(p), Error, NA, NA, NA, 0, None, now)
  }

  /** The record stored for one platform. */
  function Entry(p: Platform, run: Run, now: string): StatRecord
  {
    match run
    case Returned(r) => r
    case Raised => Fallback(p, now)
  }

  /** The extractors' `get_stats` outcomes gathered under their platform keys. */
  function CollectStats(runs: Runs, now: string): (stats: map<string, StatRecord>)
    ensures stats.Keys == PlatformKeys
    ensures forall p :: Key(p) in stats && stats[Key(p)] == Entry(p, RunOf(runs, p), now)
  {
    map[
      Key(Codeforces) := Entry(Codeforces, runs.codeforces, now),
      Key(LeetCode) := Entry(LeetCode, runs.leetcode, now),
      Key(CodeChef) := Entry(CodeChef, runs.codechef, now),
      Key(AtCoder) := Entry(AtCoder, runs.atcoder, now),
      Key(Cses) := Entry(Cses, runs.cses, now)
    ]
  }

  /**
   One extractor raising changes only its own entry, which becomes the
   fallback record; the other four entries are what they would have been.
   */
  lemma OneFailureIsolated(runs: Runs, p: Platform, now: string)
    ensures CollectStats(WithRun(runs, p, Raised), now) == CollectStats(runs, now)[Key(p) := Fallback(p, now)]
  {
    var a := CollectStats(WithRun(runs, p, Raised), now);
    var b := CollectStats(runs, now)[Key(p) := Fallback(p, now)];
    forall k | k in a.Keys
      ensures a[k] == b[k]
    {
      EntryAfterRaise(runs, p, PlatformOf(k), now);
    }
  }

  lemma EntryAfterRaise(runs: Runs, p: Platform, q: Platform, now: string)
    ensures CollectStats(WithRun(runs, p, Raised), now)[Key(q)]
      == CollectStats(runs, now)[Key(p) := Fallback(p, now)][Key(q)]
  {
    if q != p {
      KeysAndLabelsDistinct(p, q);
    }
  }

  /** Every platform's inputs, as the extractors receive them. */
  datatype Inputs = Inputs(
    cfInfo: CodeforcesExtractor.InfoReply, cfHistory: CodeforcesExtractor.StatusReply,
    lcReply: LeetCodeExtractor.Reply,
    ccPage: CodeChefExtractor.Page,
    acPage: AtCoderExtractor.Page,
    csesPage: CsesExtractor.Page)

  /** Each extractor built for its configured username and run on its inputs. */
  function RunExtractors(inputs: Inputs, now: string): Runs
  {
    Runs(
      Returned(CodeforcesExtractor.GetStats(ProfileUsername(Codeforces), inputs.cfInfo, inputs.cfHistory, now)),
      Returned(LeetCodeExtractor.GetStats(ProfileUsername(LeetCode), inputs.lcReply, now)),
      Returned(CodeChefExtractor.GetStats(ProfileUsername(CodeChef), inputs.ccPage, now)),
      Returned(AtCoderExtractor.GetStats(ProfileUsername(AtCoder), inputs.acPage, now)),
      Returned(CsesExtractor.GetStats(ProfileUsername(Cses), inputs.csesPage, now)))
  }

  /**
   Whatever the pages hold and whichever calls raise, each key holds a record
   of its own platform, for its configured user, stamped with the run's time.
   */
  lemma EntriesMatchKeys(inputs: Inputs, raised: set<Platform>, now: string)
    ensures var runs := RunExtractors(inputs, now);
      var stats := CollectStats(Overlay(runs, raised), now);
      forall p :: && stats[Key(p)].platform == p
                  && stats[Key(p)].username == ProfileUsername(p)
                  && stats[Key(p)].lastUpdated == now
                  && (p in raised ==> stats[Key(p)] == Fallback(p, now))
  {
    forall p: Platform {
      ExtractorRecordFits(inputs, p, now);
    }
  }

  /** Each extractor's record names its own platform, the configured user and the run's time. */
  lemma ExtractorRecordFits(inputs: Inputs, p: Platform, now: string)
    ensures var r := Entry(p, RunOf(RunExtractors(inputs, now), p), now);
      r.platform == p && r.username == ProfileUsername(p) && r.lastUpdated == now
  {
  }

  /** The outcomes with every platform in `raised` replaced by a raise. */
  function Overlay(runs: Runs, raised: set<Platform>): (r: Runs)
    ensures forall p :: RunOf(r, p) == if p in raised then Raised else RunOf(runs, p)
  {
    Runs(
      if Codeforces in raised then Raised else runs.codeforces,
      if LeetCode in raised then Raised else runs.leetcode,
      if CodeChef in raised then Raised else runs.codechef,
      if AtCoder in raised then Raised else runs.atcoder,
      if Cses in raised then Raised else runs.cses)
  }

  /** The solved count a run contributes: a raised call contributes nothing. */
  function SolvedBy(run: Run): int
  {
    match run
    case Returned(r) => r.problemsSolved
    case Raised => 0
  }

  /** The card's total is the sum over the five runs, with raised calls counting 0. */
  lemma TotalOverRuns(runs: Runs, now: string)
    ensures Distribution.Summarize(CollectStats(runs, now)).totalProblems
      == SolvedBy(runs.codeforces) + SolvedBy(runs.leetcode) + SolvedBy(runs.codechef)
       + SolvedBy(runs.atcoder) + SolvedBy(runs.cses)
  {
    var stats := CollectStats(runs, now);
    assert stats[Key(Codeforces)] == Entry(Codeforces, runs.codeforces, now);
    assert stats[Key(LeetCode)] == Entry(LeetCode, runs.leetcode, now);
    assert stats[Key(CodeChef)] == Entry(CodeChef, runs.codechef, now);
    assert stats[Key(AtCoder)] == Entry(AtCoder, runs.atcoder, now);
    assert stats[Key(Cses)] == Entry(Cses, runs.cses, now);
  }

  /** When every call raises, the card shows nothing solved and a 0 / 0 / 100 split. */
  lemma AllRaisedCard(now: string)
    ensures var s := Distribution.Summarize(CollectStats(Runs(Raised, Raised, Raised, Raised, Raised), now));
      s.totalProblems == 0 && s.cfPercent == 0 && s.lcPercent == 0 && s.othersPercent == 100
  {
    var stats := CollectStats(Runs(Raised, Raised, Raised, Raised, Raised), now);
    forall k | k in stats
      ensures stats[k].problemsSolved == 0
    {
      var q := PlatformOf(k);
    }
    Distribution.NothingSolvedShares(stats);
  }
}

=== FILE: atcoder.dfy ===
/**
 The AtCoder extractor: the label/value rows of the profile tables and the
 text of the accepted-submissions link become one statistics record.
 */
module AtCoderExtractor {
  import opened StatRecords
  import opened PyText

  /**
   The profile page: a transport or HTTP failure, or the cell texts of every
   row of every profile table (in page order) and the text of the
   accepted-submissions link when there is one.
   */
  datatype Page = PageFailure | Page(rows: seq<seq<string>>, acLink: Option<string>)

  /** The two fields the row loop keeps. */
  datatype Fields = Fields(rating: Value, rank: Value)

  /** Before any row: no rating, and the rank "Unrated". */
  const Initial: Fields := Fields(NA, Str("Unrated"))

  datatype Field = RatingField | RankField

  /** The row has a label and a value, and its stripped label selects the field. */
  predicate Sets(row: seq<string>, f: Field)
  {
    && |row| >= 2
    && match f
       case RatingField => Contains(Strip(row[0]), "Rating")
       case RankField => Contains(Strip(row[0]), "Class") || Contains(Strip(row[0]), "Rank")
  }

  /** `int(value.split()[0])`, or "N/A" when there is no first token or it is not an integer. */
  function RatingOf(value: string): (v: Value)
    ensures v.Str? ==> v == NA
    ensures AllSpace(value) ==> v == NA
  {
    var ws := Words(value);
    if |ws| == 0 then NA
    else match ParseInt(ws[0])
      case None => NA
      case Some(n) => Int(n)
  }

  /** A value starting with a number, then whitespace or nothing, reads as that number. */
  lemma RatingOfNumber(n: int, rest: string)
    requires rest == [] || IsSpace(rest[0])
    ensures RatingOf(IntToString(n) + rest) == Int(n)
  {
    var s := IntToString(n);
    IntToStringChars(n);
    WordsCons(s, rest);
    ParseIntOfString(n);
  }

  /** A value whose first word is not an integer, whatever whitespace precedes it, reads as "N/A". */
  lemma RatingOfNotNumber(p: string, w: string, rest: string)
    requires AllSpace(p) && |w| > 0 && NoSpace(w) && (rest == [] || IsSpace(rest[0]))
    requires ParseInt(w).None?
    ensures RatingOf(p + w + rest) == NA
  {
    WordsSkipSpaces(p, w + rest);
    WordsCons(w, rest);
    assert p + w + rest == p + (w + rest);
  }

  /** One pass of the row loop. */
  function ApplyRow(f: Fields, row: seq<string>): Fields
  {
    if |row| < 2 then f
    else
      var value := Strip(row[1]);
      var f1 := if Sets(row, RatingField) then f.(rating := RatingOf(value)) else f;
      if Sets(row, RankField) then f1.(rank := Str(value)) else f1
  }

  /**
   The loop over all rows in order. The rating is a number or "N/A", and the
   rank is always text.
   */
  function FoldRows(rows: seq<seq<string>>): (r: Fields)
    ensures r.rating.Str? ==> r.rating == NA
    ensures r.rank.Str?
  {
    if |rows| == 0 then Initial
    else ApplyRow(FoldRows(rows[..|rows| - 1]), rows[|rows| - 1])
  }

  /** Which rows set the field. */
  function Marks(rows: seq<seq<string>>, f: Field): (m: seq<bool>)
    ensures |m| == |rows| && forall j :: 0 <= j < |rows| ==> m[j] == Sets(rows[j], f)
  {
    seq(|rows|, j requires 0 <= j < |rows| => Sets(rows[j], f))
  }

  /** The index of the last true mark. */
  function LastTrue(marks: seq<bool>): (r: Option<nat>)
    ensures r.Some? ==> r.value < |marks| && marks[r.value]
    ensures r.Some? ==> forall j :: r.value < j < |marks| ==> !marks[j]
    ensures r.None? ==> forall j :: 0 <= j < |marks| ==> !marks[j]
  {
    if |marks| == 0 then None
    else if marks[|marks| - 1] then Some(|marks| - 1)
    else
      var r := LastTrue(marks[..|marks| - 1]);
      assert forall j :: 0 <= j < |marks| - 1 ==> marks[..|marks| - 1][j] == marks[j];
      r
  }

  /** The index of the last row that sets the field. */
  function LastSetting(rows: seq<seq<string>>, f: Field): (r: Option<nat>)
    ensures r.Some? ==> r.value < |rows| && Sets(rows[r.value], f)
    ensures r.Some? ==> forall j :: r.value < j < |rows| ==> !Sets(rows[j], f)
    ensures r.None? ==> forall j :: 0 <= j < |rows| ==> !Sets(rows[j], f)
  {
    LastTrue(Marks(rows, f))
  }

  /** The rating the last rating row gives, "N/A" without one. */
  function RatingAfter(rows: seq<seq<string>>): Value
  {
    match LastSetting(rows, RatingField)
    case None => NA
    case Some(i) => RatingOf(Strip(rows[i][1]))
  }

  /** The value of the last class or rank row, "Unrated" without one. */
  function RankAfter(rows: seq<seq<string>>): Value
  {
    match LastSetting(rows, RankField)
    case None => Str("Unrated")
    case Some(i) => Str(Strip(rows[i][1]))
  }

  /** A new last row decides a field exactly when it sets it. */
  lemma LastSettingSnoc(init: seq<seq<string>>, row: seq<string>, f: Field)
    ensures LastSetting(init + [row], f) == if Sets(row, f) then Some(|init|) else LastSetting(init, f)
  {
    var m := Marks(init + [row], f);
    assert m == Marks(init, f) + [Sets(row, f)];
    assert m[..|init|] == Marks(init, f);
  }

  /** The loop keeps, for each field, what the last row setting it says; later rows override earlier ones. */
  lemma FoldRowsLastWins(rows: seq<seq<string>>)
    ensures FoldRows(rows) == Fields(RatingAfter(rows), RankAfter(rows))
  {
    FoldRowsRating(rows);
    FoldRowsRank(rows);
  }

  lemma {:induction false} FoldRowsRating(rows: seq<seq<string>>)
    ensures FoldRows(rows).rating == RatingAfter(rows)
    decreases |rows|
  {
    if |rows| > 0 {
      var init := rows[..|rows| - 1];
      FoldRowsRating(init);
      ApplyRowFields(FoldRows(init), rows[|rows| - 1]);
      RatingAfterLast(rows);
    }
  }

  lemma {:induction false} FoldRowsRank(rows: seq<seq<string>>)
    ensures FoldRows(rows).rank == RankAfter(rows)
    decreases |rows|
  {
    if |rows| > 0 {
      var init := rows[..|rows| - 1];
      FoldRowsRank(init);
      ApplyRowFields(FoldRows(init), rows[|rows| - 1]);
      RankAfterLast(rows);
    }
  }

  /** A last row decides the rating exactly when it sets it; otherwise the rows before it decide. */
  lemma RatingAfterLast(rows: seq<seq<string>>)
    requires |rows| > 0
    ensures var row := rows[|rows| - 1];
      RatingAfter(rows)
      == if Sets(row, RatingField) then RatingOf(Strip(row[1])) else RatingAfter(rows[..|rows| - 1])
  {
    var init := rows[..|rows| - 1];
    LastSettingLast(rows, RatingField);
    if Sets(rows[|rows| - 1], RatingField) {
      assert LastSetting(rows, RatingField) == Some(|rows| - 1);
    } else {
      var l := LastSetting(init, RatingField);
      assert LastSetting(rows, RatingField) == l;
      if l.Some? {
        assert rows[l.value] == init[l.value];
      }
    }
  }

  /** A last row decides the rank exactly when it sets it; otherwise the rows before it decide. */
  lemma RankAfterLast(rows: seq<seq<string>>)
    requires |rows| > 0
    ensures var row := rows[|rows| - 1];
      RankAfter(rows) == if Sets(row, RankField) then Str(Strip(row[1])) else RankAfter(rows[..|rows| - 1])
  {
    var init := rows[..|rows| - 1];
    LastSettingLast(rows, RankField);
    if Sets(rows[|rows| - 1], RankField) {
      assert LastSetting(rows, RankField) == Some(|rows| - 1);
    } else {
      var l := LastSetting(init, RankField);
      assert LastSetting(rows, RankField) == l;
      if l.Some? {
        assert rows[l.value] == init[l.value];
      }
    }
  }

  /** `LastSettingSnoc` for the last row of `rows` itself. */
  lemma LastSettingLast(rows: seq<seq<string>>, f: Field)
    requires |rows| > 0
    ensures LastSetting(rows, f)
      == if Sets(rows[|rows| - 1], f) then Some(|rows| - 1) else LastSetting(rows[..|rows| - 1], f)
  {
    var m := Marks(rows, f);
    var init := rows[..|rows| - 1];
    assert m[..|rows| - 1] == Marks(init, f);
  }

  /** A row overwrites exactly the fields it sets, with its stripped value cell. */
  lemma ApplyRowFields(f: Fields, row: seq<string>)
    ensures ApplyRow(f, row) == Fields(
      if Sets(row, RatingField) then RatingOf(Strip(row[1])) else f.rating,
      if Sets(row, RankField) then Str(Strip(row[1])) else f.rank)
  {
  }

  lemma RatingAfterSnoc(init: seq<seq<string>>, row: seq<string>)
    ensures RatingAfter(init + [row])
      == if Sets(row, RatingField) then RatingOf(Strip(row[1])) else RatingAfter(init)
  {
    LastSettingSnoc(init, row, RatingField);
    var l := LastSetting(init, RatingField);
    if !Sets(row, RatingField) && l.Some? {
      assert (init + [row])[l.value] == init[l.value];
    }
  }

  lemma RankAfterSnoc(init: seq<seq<string>>, row: seq<string>)
    ensures RankAfter(init + [row])
      == if Sets(row, RankField) then Str(Strip(row[1])) else RankAfter(init)
  {
    LastSettingSnoc(init, row, RankField);
    var l := LastSetting(init, RankField);
    if !Sets(row, RankField) && l.Some? {
      assert (init + [row])[l.value] == init[l.value];
    }
  }

  /** The rank is "Unrated" or the stripped value cell of a row whose label names a class or rank. */
  lemma RankFromSomeRow(rows: seq<seq<string>>)
    ensures var rank := FoldRows(rows).rank;
      rank == Initial.rank
      || exists i :: 0 <= i < |rows| && Sets(rows[i], RankField) && rank == Str(Strip(rows[i][1]))
  {
    FoldRowsLastWins(rows);
  }

  /** Rows that set neither field leave rating "N/A" and rank "Unrated". */
  lemma NoMatchingRows(rows: seq<seq<string>>)
    requires forall j :: 0 <= j < |rows| ==> !Sets(rows[j], RatingField) && !Sets(rows[j], RankField)
    ensures FoldRows(rows) == Initial
  {
    FoldRowsLastWins(rows);
  }

  /** A row whose label holds "Rating" decides the rating, whatever came before it. */
  lemma LastRatingRowWins(rows: seq<seq<string>>, name: string, value: string)
    requires Contains(Strip(name), "Rating")
    ensures FoldRows(rows + [[name, value]]).rating == RatingOf(Strip(value))
  {
    FoldRowsSnoc(rows, [name, value]);
  }

  /**
   Any label holding "Rating" sets the rating, so a "Highest Rating" row
   after the "Rating" row leaves the highest rating in the rating field.
   */
  lemma HighestRatingOverrides(current: int, highest: int)
    ensures FoldRows([["Rating", IntToString(current)], ["Highest Rating", IntToString(highest)]]).rating
      == Int(highest)
  {
    var rows := [["Rating", IntToString(current)], ["Highest Rating", IntToString(highest)]];
    HighestLabelSetsRating();
    LastRowSetsRating(rows);
    NumberReadsBack(highest);
  }

  lemma LastRowSetsRating(rows: seq<seq<string>>)
    requires |rows| > 0 && Sets(rows[|rows| - 1], RatingField)
    ensures FoldRows(rows).rating == RatingOf(Strip(rows[|rows| - 1][1]))
  {
    ApplyRowFields(FoldRows(rows[..|rows| - 1]), rows[|rows| - 1]);
  }

  lemma HighestLabelSetsRating()
    ensures Contains(Strip("Highest Rating"), "Rating")
  {
    var w := "Highest Rating";
    StripPadded("", w, "");
    assert "" + w + "" == w;
    assert w[8..14] == "Rating";
    assert OccursAt(w, "Rating", 8);
  }

  lemma NumberReadsBack(n: int)
    ensures RatingOf(Strip(IntToString(n))) == Int(n)
  {
    var s := IntToString(n);
    IntToStringChars(n);
    StripPadded("", s, "");
    assert "" + s + "" == s;
    RatingOfNumber(n, "");
    assert s + "" == s;
  }

  /** A row with fewer than two cells is skipped wherever it stands. */
  lemma {:induction false} ShortRowIgnored(a: seq<seq<string>>, row: seq<string>, b: seq<seq<string>>)
    requires |row| < 2
    ensures FoldRows(a + [row] + b) == FoldRows(a + b)
    decreases |b|
  {
    if |b| == 0 {
      assert a + [row] + b == a + [row];
      assert (a + [row])[..|a|] == a;
      assert a + b == a;
    } else {
      var b' := b[..|b| - 1];
      var last := b[|b| - 1];
      ShortRowIgnored(a, row, b');
      assert a + [row] + b == (a + [row] + b') + [last];
      assert a + b == (a + b') + [last];
      assert (a + [row] + b')[..|a + [row] + b'|] == a + [row] + b';
      FoldRowsSnoc(a + [row] + b', last);
      FoldRowsSnoc(a + b', last);
    }
  }

  lemma FoldRowsSnoc(rows: seq<seq<string>>, row: seq<string>)
    ensures FoldRows(rows + [row]) == ApplyRow(FoldRows(rows), row)
  {
    assert (rows + [row])[..|rows|] == rows;
  }

  /**
   The count in the link text: the integer between the first "(" and the
   next ")" of the stripped text, and 0 when either parenthesis is missing or
   the text between them is not an integer.
   */
  function ParenCount(linkText: string): (n: int)
    ensures n != 0 ==> '(' in linkText && ')' in linkText
  {
    StripKeeps(linkText, '(');
    StripKeeps(linkText, ')');
    ParenCountStripped(Strip(linkText))
  }

  /** The same, once the link text has been stripped. */
  function ParenCountStripped(text: string): (n: int)
    ensures n != 0 ==> '(' in text && ')' in text
  {
    ContainsChar(text, ')');
    if Contains(text, "(") && Contains(text, ")") then
      ContainsChar(text, '(');
      var afterOpen := Split(text, '(')[1];
      match ParseInt(Split(afterOpen, ')')[0])
      case None => 0
      case Some(n) => n
    else 0
  }

  /** A link text `a(n)b`, with no "(" in `a`, counts `n`, whatever whitespace surrounds it. */
  lemma ParenCountReads(p: string, a: string, n: int, b: string, q: string)
    requires AllSpace(p) && AllSpace(q) && Trimmed(a) && Trimmed(b) && '(' !in a
    ensures ParenCount(p + (a + "(" + IntToString(n) + ")" + b) + q) == n
  {
    var w := a + "(" + IntToString(n) + ")" + b;
    ParenTextTrimmed(a, IntToString(n), b);
    StripPadded(p, w, q);
    ParenCountStrippedReads(a, n, b);
  }

  /** Text between the parentheses that is not an integer counts 0: the ValueError is caught. */
  lemma ParenCountNotNumber(p: string, a: string, m: string, b: string, q: string)
    requires AllSpace(p) && AllSpace(q) && Trimmed(a) && Trimmed(b)
    requires '(' !in a && '(' !in m && ')' !in m && ParseInt(m).None?
    ensures ParenCount(p + (a + "(" + m + ")" + b) + q) == 0
  {
    var w := a + "(" + m + ")" + b;
    ParenTextTrimmed(a, m, b);
    StripPadded(p, w, q);
    ParenTextContains(a, m, b);
    ParenInner(a, m, b);
  }

  /**
   `count_str` is not stripped, and `int` does not skip an information
   separator, so `a(\x1c5)b` counts 0 although `strip()` would remove it.
   */
  lemma ParenSeparatorCountsZero(p: string, a: string, n: int, b: string, q: string)
    requires AllSpace(p) && AllSpace(q) && Trimmed(a) && Trimmed(b) && '(' !in a
    ensures ParenCount(p + (a + "(" + (['\U{1C}'] + IntToString(n)) + ")" + b) + q) == 0
  {
    SeparatedNumber(n);
    ParenCountNotNumber(p, a, ['\U{1C}'] + IntToString(n), b, q);
  }

  /** A number behind a separator holds no parenthesis and does not parse. */
  lemma SeparatedNumber(n: int)
    ensures '(' !in ['\U{1C}'] + IntToString(n) && ')' !in ['\U{1C}'] + IntToString(n)
    ensures ParseInt(['\U{1C}'] + IntToString(n)).None?
  {
    NoParenInNumber(n);
    SeparatorRejected(n);
  }

  lemma NoParenInNumber(n: int)
    ensures '(' !in IntToString(n) && ')' !in IntToString(n)
  {
    IntToStringChars(n);
  }

  lemma ParenCountStrippedReads(a: string, n: int, b: string)
    requires '(' !in a
    ensures ParenCountStripped(a + "(" + IntToString(n) + ")" + b) == n
  {
    var num := IntToString(n);
    IntToStringChars(n);
    ParenTextContains(a, num, b);
    ParenInner(a, num, b);
    ParseIntOfString(n);
  }

  lemma ParenTextContains(a: string, num: string, b: string)
    ensures Contains(a + "(" + num + ")" + b, "(") && Contains(a + "(" + num + ")" + b, ")")
  {
    var w := a + "(" + num + ")" + b;
    assert w[|a|] == '(' && w[|a| + 1 + |num|] == ')';
    ContainsChar(w, '(');
    ContainsChar(w, ')');
  }

  lemma ParenTextTrimmed(a: string, num: string, b: string)
    requires Trimmed(a) && Trimmed(b)
    ensures Trimmed(a + "(" + num + ")" + b)
  {
    var w := a + "(" + num + ")" + b;
    assert w[0] == if a == [] then '(' else a[0];
    assert w[|w| - 1] == if b == [] then ')' else b[|b| - 1];
  }

  /** The text after the first "(" up to the next ")" is what stands between them. */
  lemma ParenInner(a: string, num: string, b: string)
    requires '(' !in a && '(' !in num && ')' !in num
    ensures Split(Split(a + "(" + num + ")" + b, '(')[1], ')')[0] == num
  {
    AfterFirstOpen(a, num, b);
    UpToClose(num, b);
  }

  lemma AfterFirstOpen(a: string, num: string, b: string)
    requires '(' !in a
    ensures Split(a + "(" + num + ")" + b, '(')[1] == Split(num + ")" + b, '(')[0]
  {
    var r := num + ")" + b;
    assert a + "(" + num + ")" + b == a + ['('] + r;
    SplitCons(a, '(', r);
  }

  lemma UpToClose(num: string, b: string)
    requires '(' !in num && ')' !in num
    ensures Split(Split(num + ")" + b, '(')[0], ')')[0] == num
  {
    var r := num + [')'] + b;
    assert num + ")" + b == r;
    NoOpenBeforeClose(num, b);
    SplitHead(r, '(', |num| + 1);
    var h := Split(r, '(')[0];
    PrefixThrough(num, ')', b, |h|);
    SplitCons(num, ')', b[..|h| - |num| - 1]);
  }

  lemma NoOpenBeforeClose(num: string, b: string)
    requires '(' !in num
    ensures '(' !in (num + [')'] + b)[..|num| + 1]
  {
    assert (num + [')'] + b)[..|num| + 1] == num + [')'];
  }

  /** A prefix reaching past the marked character keeps it and what precedes it. */
  lemma PrefixThrough(a: string, x: char, b: string, n: nat)
    requires |a| + 1 <= n <= |a| + 1 + |b|
    ensures (a + [x] + b)[..n] == a + [x] + b[..n - |a| - 1]
  {
  }

  /** The extractor's `get_stats`. */
  function GetStats(username: string, page: Page, now: string): (r: StatRecord)
    ensures r.platform == AtCoder && r.username == username && r.lastUpdated == now && r.detail.None?
    ensures r.status == Error <==> page.PageFailure?
    ensures r.status == Error ==> r == ErrorRecord(AtCoder, username, now)
    ensures r.status == Active ==>
      && r.rating == RatingAfter(page.rows)
      && r.rank == RankAfter(page.rows)
      && r.maxRating == NA
      && (page.acLink.None? ==> r.problemsSolved == 0)
      && (page.acLink.Some? ==> r.problemsSolved == ParenCount(page.acLink.value))
  {
    if page.PageFailure? then ErrorRecord(AtCoder, username, now)
    else
      var f := FoldRows(page.rows);
      FoldRowsLastWins(page.rows);
      var solved := if page.acLink.Some? then ParenCount(page.acLink.value) else 0;
      StatRecord(AtCoder, username, Active, f.rating, NA, f.rank, solved, None, now)
  }
}

=== FILE: codechef.dfy ===
/**
 The CodeChef extractor: the texts of the profile page's rating, star and
 problems elements (each possibly absent) become one statistics record.
 */
module CodeChefExtractor {
  import opened StatRecords
  import opened PyText

  /** The profile page: a transport or HTTP failure, or the text of each selected element. */
  datatype Page = PageFailure | Page(ratingText: Option<string>, starText: Option<string>, problemsText: Option<string>)

  /** The approximate solved count: the number of comma-separated pieces, or 0 without a comma. */
  function ProblemsCount(text: string): (n: nat)
    ensures n == (if ',' in text then multiset(text)[','] + 1 else 0)
  {
    ContainsChar(text, ',');
    if Contains(text, ",") then |Split(text, ',')| else 0
  }

  /** One comma never yields a count of one: it is 0, or 2 and more. */
  lemma ProblemsCountNeverOne(text: string)
    ensures ProblemsCount(text) != 1
  {
  }

  /** The extractor's `get_stats`. */
  function GetStats(username: string, page: Page, now: string): (r: StatRecord)
    ensures r.platform == CodeChef && r.username == username && r.lastUpdated == now && r.detail.None?
    ensures r.status == Error <==>
      page.PageFailure? || (page.ratingText.Some? && ParseInt(Strip(page.ratingText.value)).None?)
    ensures r.status == Error ==> r == ErrorRecord(CodeChef, username, now)
    ensures r.status == Active ==>
      && r.maxRating == NA
      && (page.ratingText.None? ==> r.rating == NA)
      && (page.ratingText.Some? ==> r.rating == Int(ParseInt(Strip(page.ratingText.value)).value))
      && r.rank == (if page.starText.Some? then Str(Strip(page.starText.value)) else Str("Unrated"))
      && (page.problemsText.None? ==> r.problemsSolved == 0)
      && (page.problemsText.Some? ==> r.problemsSolved == ProblemsCount(page.problemsText.value))
  {
    if page.PageFailure? then ErrorRecord(CodeChef, username, now)
    else
      var rating: Option<Value> :=
        if page.ratingText.None? then Some(NA)
        else match ParseInt(Strip(page.ratingText.value))
          case None => None
          case Some(n) => Some(Int(n));
      if rating.None? then ErrorRecord(CodeChef, username, now)
      else
        var rank := if page.starText.Some? then Str(Strip(page.starText.value)) else Str("Unrated");
        var solved := if page.problemsText.Some? then ProblemsCount(page.problemsText.value) else 0;
        StatRecord(CodeChef, username, Active, rating.value, NA, rank, solved, None, now)
  }

  /** A rating element holding a number, with any whitespace around it, is read as that number. */
  lemma RatingRead(username: string, n: int, p: string, q: string, star: Option<string>, problems: Option<string>, now: string)
    requires AllSpace(p) && AllSpace(q)
    ensures GetStats(username, Page(Some(p + IntToString(n) + q), star, problems), now).rating == Int(n)
  {
    ParseIntPadded(n, p, q);
  }
}

=== FILE: codeforces.dfy ===
/**
 The Codeforces extractor: a user-info reply and a submission-history reply
 (both already fetched and decoded) become one statistics record.
 */
module CodeforcesExtractor {
  import opened StatRecords
  import opened PyText

  /** The fields read from the first entry of the user-info result. */
  datatype User = User(rating: Option<int>, maxRating: Option<int>, rank: Option<string>)

  /**
   The user-info call: a transport, HTTP or JSON failure, a body without
   `status`, or an OK body without `result` (each raises in the source), or the
   decoded body.
   */
  datatype InfoReply = InfoFailure | InfoReply(status: string, users: seq<User>)

  /** One submission: its verdict and the problem's contest id and index, each possibly missing. */
  datatype Submission = Submission(verdict: Option<string>, contestId: Option<int>, index: Option<string>)

  /**
   The submission-history call: a failure as for the user-info call, or the
   decoded body; a non-OK body's `result` is never read.
   */
  datatype StatusReply = StatusFailure | StatusReply(status: string, submissions: seq<Submission>)

  /** An accepted submission. */
  predicate Accepted(s: Submission)
  {
    s.verdict == Some("OK")
  }

  /** Looking at this submission raises: a missing verdict, or an accepted one without its problem. */
  predicate Raises(s: Submission)
  {
    s.verdict.None? || (Accepted(s) && (s.contestId.None? || s.index.None?))
  }

  /** The key `"{contestId}-{index}"` that identifies a problem. */
  function ProblemKey(contestId: int, index: string): string
  {
    IntToString(contestId) + "-" + index
  }

  /** The key `k` is the problem of some accepted submission. */
  ghost predicate SolvedKey(subs: seq<Submission>, k: string)
  {
    exists i :: 0 <= i < |subs| && Accepted(subs[i]) && !Raises(subs[i])
      && ProblemKey(subs[i].contestId.value, subs[i].index.value) == k
  }

  /** The set of keys of accepted submissions, or None when the loop over them raises. */
  function SolvedKeys(subs: seq<Submission>): (r: Option<set<string>>)
    ensures r.None? <==> exists i :: 0 <= i < |subs| && Raises(subs[i])
    ensures r.Some? ==> |r.value| <= |subs|
  {
    if |subs| == 0 then Some({})
    else
      var rest := SolvedKeys(subs[1..]);
      assert forall i :: 1 <= i < |subs| ==> subs[i] == subs[1..][i - 1];
      Visit(subs[0], rest)
  }

  /** One submission looked at on top of the keys gathered from the others. */
  function Visit(s: Submission, keys: Option<set<string>>): Option<set<string>>
  {
    if Raises(s) || keys.None? then None
    else if !Accepted(s) then keys
    else Some({ProblemKey(s.contestId.value, s.index.value)} + keys.value)
  }

  lemma SolvedKeysCons(s: Submission, rest: seq<Submission>)
    ensures SolvedKeys([s] + rest) == Visit(s, SolvedKeys(rest))
  {
    assert ([s] + rest)[0] == s && ([s] + rest)[1..] == rest;
  }

  /** The solved set holds exactly the keys of accepted submissions. */
  lemma {:induction false} SolvedKeysMembers(subs: seq<Submission>)
    requires SolvedKeys(subs).Some?
    ensures forall k :: k in SolvedKeys(subs).value <==> SolvedKey(subs, k)
    decreases |subs|
  {
    if |subs| > 0 {
      var s := subs[0];
      var tail := subs[1..];
      SolvedKeysMembers(tail);
      forall k ensures SolvedKey(subs, k) <==> (Accepted(s) && k == ProblemKey(s.contestId.value, s.index.value)) || SolvedKey(tail, k) {
        if SolvedKey(subs, k) {
          var i :| 0 <= i < |subs| && Accepted(subs[i]) && !Raises(subs[i])
            && ProblemKey(subs[i].contestId.value, subs[i].index.value) == k;
          if i > 0 { assert tail[i - 1] == subs[i]; }
        }
        if SolvedKey(tail, k) {
          var i :| 0 <= i < |tail| && Accepted(tail[i]) && !Raises(tail[i])
            && ProblemKey(tail[i].contestId.value, tail[i].index.value) == k;
          assert subs[i + 1] == tail[i];
        }
        if Accepted(s) && k == ProblemKey(s.contestId.value, s.index.value) {
          assert subs[0] == s;
        }
      }
    }
  }

  /** The number of distinct problems solved, or None when reading the submissions raises. */
  function ProblemsSolved(reply: StatusReply): (r: Option<int>)
    requires reply.StatusReply?
    ensures reply.status != "OK" ==> r == Some(0)
    ensures r.None? <==> reply.status == "OK" && exists i :: 0 <= i < |reply.submissions| && Raises(reply.submissions[i])
    ensures r.Some? ==> 0 <= r.value <= |reply.submissions|
  {
    if reply.status != "OK" then Some(0)
    else match SolvedKeys(reply.submissions)
      case None => None
      case Some(keys) => Some(|keys|)
  }

  /** The extractor's `get_stats`; `now` stands for the timestamp taken when the record is built. */
  function GetStats(username: string, info: InfoReply, history: StatusReply, now: string): (r: StatRecord)
    ensures r.platform == Codeforces && r.username == username && r.lastUpdated == now && r.detail.None?
    ensures r.status == Error ==> r == ErrorRecord(Codeforces, username, now)
    ensures r.status == Active <==>
      info.InfoReply? && info.status == "OK" && |info.users| > 0 && history.StatusReply?
      && (history.status != "OK" || SolvedKeys(history.submissions).Some?)
    ensures r.status == Active ==>
      && r.rating == Int(if info.users[0].rating.Some? then info.users[0].rating.value else 0)
      && r.maxRating == Int(if info.users[0].maxRating.Some? then info.users[0].maxRating.value else 0)
      && r.rank == Str(if info.users[0].rank.Some? then info.users[0].rank.value else "Unrated")
      && (history.status != "OK" ==> r.problemsSolved == 0)
      && (history.status == "OK" ==> r.problemsSolved == |SolvedKeys(history.submissions).value|)
  {
    if info.InfoFailure? || info.status != "OK" || |info.users| == 0 || history.StatusFailure? then
      ErrorRecord(Codeforces, username, now)
    else
      match ProblemsSolved(history)
      case None => ErrorRecord(Codeforces, username, now)
      case Some(solved) =>
        var user := info.users[0];
        StatRecord(Codeforces, username, Active,
                   Int(if user.rating.Some? then user.rating.value else 0),
                   Int(if user.maxRating.Some? then user.maxRating.value else 0),
                   Str(if user.rank.Some? then user.rank.value else "Unrated"),
                   solved, None, now)
  }

  /** Distinct (contest, index) pairs give distinct keys, so the key count is the problem count. */
  lemma ProblemKeyInjective(c1: int, i1: string, c2: int, i2: string)
    requires ProblemKey(c1, i1) == ProblemKey(c2, i2)
    ensures c1 == c2 && i1 == i2
  {
    var s1 := IntToString(c1);
    var s2 := IntToString(c2);
    var k := ProblemKey(c1, i1);
    IntToStringChars(c1);
    IntToStringChars(c2);
    // the first '-' after position 0 ends the number in both keys
    assert k[..|s1|] == s1 && k[|s1|] == '-';
    assert ProblemKey(c2, i2)[..|s2|] == s2 && ProblemKey(c2, i2)[|s2|] == '-';
    assert s1 == s2;
    IntToStringInjective(c1, c2);
    assert k[|s1| + 1..] == i1;
    assert ProblemKey(c2, i2)[|s2| + 1..] == i2;
  }

  /** A submission that was judged but not accepted never changes the solved set. */
  lemma {:induction false} RejectedSubmissionIgnored(a: seq<Submission>, x: Submission, b: seq<Submission>)
    requires x.verdict.Some? && !Accepted(x)
    ensures SolvedKeys(a + [x] + b) == SolvedKeys(a + b)
    decreases |a|
  {
    if |a| == 0 {
      assert a + [x] + b == [x] + b && a + b == b;
      SolvedKeysCons(x, b);
    } else {
      RejectedSubmissionIgnored(a[1..], x, b);
      assert a + [x] + b == [a[0]] + (a[1..] + [x] + b);
      assert a + b == [a[0]] + (a[1..] + b);
      SolvedKeysCons(a[0], a[1..] + [x] + b);
      SolvedKeysCons(a[0], a[1..] + b);
    }
  }

  /** Looking at one more submission at the end adds its key, or raises. */
  lemma {:induction false} SolvedKeysSnoc(subs: seq<Submission>, x: Submission)
    ensures SolvedKeys(subs + [x]) == Visit(x, SolvedKeys(subs))
    decreases |subs|
  {
    if |subs| == 0 {
      assert subs + [x] == [x] + [];
      SolvedKeysCons(x, []);
    } else {
      SolvedKeysSnoc(subs[1..], x);
      assert subs + [x] == [subs[0]] + (subs[1..] + [x]);
      assert subs == [subs[0]] + subs[1..];
      SolvedKeysCons(subs[0], subs[1..] + [x]);
      SolvedKeysCons(subs[0], subs[1..]);
      VisitCommutes(subs[0], x, SolvedKeys(subs[1..]));
    }
  }

  /** The order in which two submissions are looked at does not matter. */
  lemma VisitCommutes(a: Submission, b: Submission, keys: Option<set<string>>)
    ensures Visit(a, Visit(b, keys)) == Visit(b, Visit(a, keys))
  {
    if keys.Some? && !Raises(a) && !Raises(b) && Accepted(a) && Accepted(b) {
      var ka := ProblemKey(a.contestId.value, a.index.value);
      var kb := ProblemKey(b.contestId.value, b.index.value);
      assert {ka} + ({kb} + keys.value) == {kb} + ({ka} + keys.value);
    }
  }

  /** Solving an already-solved problem again does not change the count. */
  lemma ResubmissionCountsOnce(subs: seq<Submission>, x: Submission)
    requires Accepted(x) && x.contestId.Some? && x.index.Some?
    requires exists i :: 0 <= i < |subs| && subs[i] == x
    ensures SolvedKeys(subs + [x]) == SolvedKeys(subs)
  {
    SolvedKeysSnoc(subs, x);
    var r := SolvedKeys(subs);
    if r.Some? {
      var k := ProblemKey(x.contestId.value, x.index.value);
      var i :| 0 <= i < |subs| && subs[i] == x;
      AcceptedKeyIn(subs, i);
      assert {k} + r.value == r.value;
    }
  }

  /** The key of every accepted submission is in the solved set. */
  lemma {:induction false} AcceptedKeyIn(subs: seq<Submission>, i: nat)
    requires SolvedKeys(subs).Some? && i < |subs| && Accepted(subs[i])
    ensures ProblemKey(subs[i].contestId.value, subs[i].index.value) in SolvedKeys(subs).value
    decreases i
  {
    assert subs == [subs[0]] + subs[1..];
    SolvedKeysCons(subs[0], subs[1..]);
    if i > 0 {
      assert subs[i] == subs[1..][i - 1];
      AcceptedKeyIn(subs[1..], i - 1);
    }
  }

  /** Two accepted submissions of one problem and one of another count as two problems. */
  lemma TwoDistinctProblems()
    ensures var a := Submission(Some("OK"), Some(1500), Some("A"));
      var b := Submission(Some("OK"), Some(1500), Some("B"));
      var w := Submission(Some("WRONG_ANSWER"), Some(1500), Some("C"));
      GetStats("u", InfoReply("OK", [User(Some(1400), Some(1500), Some("specialist"))]),
               StatusReply("OK", [a, w, a, b]), "t").problemsSolved == 2
  {
    var a := Submission(Some("OK"), Some(1500), Some("A"));
    var b := Submission(Some("OK"), Some(1500), Some("B"));
    var w := Submission(Some("WRONG_ANSWER"), Some(1500), Some("C"));
    var kA := ProblemKey(1500, "A");
    var kB := ProblemKey(1500, "B");
    RepeatedAndRejected(a, w, b);
    assert kA[|kA| - 1] == 'A' && kB[|kB| - 1] == 'B';
    assert |{kA, kB}| == 2;
  }

  /** A repeated accepted submission and a rejected one add nothing to the solved set. */
  lemma RepeatedAndRejected(a: Submission, w: Submission, b: Submission)
    requires Accepted(a) && !Raises(a) && Accepted(b) && !Raises(b) && w.verdict.Some? && !Accepted(w)
    ensures SolvedKeys([a, w, a, b]) == Some({ProblemKey(a.contestId.value, a.index.value), ProblemKey(b.contestId.value, b.index.value)})
  {
    var kA := ProblemKey(a.contestId.value, a.index.value);
    var kB := ProblemKey(b.contestId.value, b.index.value);
    SolvedKeysCons(b, []);
    assert [b] + [] == [b];
    assert SolvedKeys([b]) == Some({kB});
    SolvedKeysCons(a, [b]);
    assert [a] + [b] == [a, b];
    assert {kA} + {kB} == {kA, kB};
    assert SolvedKeys([a, b]) == Some({kA, kB});
    SolvedKeysCons(w, [a, b]);
    assert [w] + [a, b] == [w, a, b];
    SolvedKeysCons(a, [w, a, b]);
    assert [a] + [w, a, b] == [a, w, a, b];
    assert {kA} + {kA, kB} == {kA, kB};
  }
}

=== FILE: cses.dfy ===
/**
 The CSES extractor: the text of the profile page's content block becomes
 one statistics record whose only measured field is the number of solved
 tasks.
 */
module CsesExtractor {
  import opened StatRecords
  import opened PyText

  /** The profile page: a transport or HTTP failure, or the text of the content block if there is one. */
  datatype Page = PageFailure | Page(content: Option<string>)

  /** The text that marks the solved-tasks line. */
  const Marker: string := "Solved tasks"

  /** The index of the first line, at or after `from`, that contains `t`. */
  function FirstLineWith(lines: seq<string>, t: string, from: nat): (r: Option<nat>)
    ensures r.Some? ==> from <= r.value < |lines| && Contains(lines[r.value], t)
    ensures r.Some? ==> forall j :: from <= j < r.value ==> !Contains(lines[j], t)
    ensures r.None? ==> forall j :: from <= j < |lines| ==> !Contains(lines[j], t)
    decreases |lines| - from
  {
    if from >= |lines| then None
    else if Contains(lines[from], t) then Some(from)
    else FirstLineWith(lines, t, from + 1)
  }

  /**
   The solved count read from the content text: the integer after the first
   ':' of the first line holding the marker, or 0 when there is no marker, no
   such line, no ':' or no integer there.
   */
  function SolvedCount(text: string): (n: int)
    ensures n != 0 ==> Contains(text, Marker) && ':' in text
  {
    if !Contains(text, Marker) then 0
    else
      var lines := Split(text, '\n');
      match FirstLineWith(lines, Marker, 0)
      case None => 0
      case Some(i) =>
        if ':' in lines[i] then
          CharInJoin(lines, '\n', i, ':');
          LineCount(lines[i])
        else LineCount(lines[i])
  }

  /** `int(line.split(":")[1].strip())`, and 0 when there is no ':' or no integer after it. */
  function LineCount(line: string): (n: int)
    ensures n != 0 ==> ':' in line
  {
    var parts := Split(line, ':');
    if |parts| < 2 then 0
    else match ParseInt(Strip(parts[1]))
      case None => 0
      case Some(n) => n
  }

  /** The extractor's `get_stats`. */
  function GetStats(username: string, page: Page, now: string): (r: StatRecord)
    ensures r.platform == Cses && r.username == username && r.lastUpdated == now && r.detail.None?
    ensures r.status == Error <==> page.PageFailure?
    ensures r.status == Error ==> r == ErrorRecord(Cses, username, now)
    ensures r.status == Active ==>
      && r.rating == NA && r.maxRating == NA && r.rank == NA
      && (page.content.None? ==> r.problemsSolved == 0)
      && (page.content.Some? ==> r.problemsSolved == SolvedCount(page.content.value))
  {
    if page.PageFailure? then ErrorRecord(Cses, username, now)
    else
      var solved := if page.content.Some? then SolvedCount(page.content.value) else 0;
      StatRecord(Cses, username, Active, NA, NA, NA, solved, None, now)
  }

  /** Without the marker anywhere in the text nothing is counted. */
  lemma NoMarkerNoCount(text: string)
    requires forall k :: !OccursAt(text, Marker, k)
    ensures SolvedCount(text) == 0
  {
  }

  /**
   The marker holds no line break, so a marker in the text always lies inside
   one of its lines: the list comprehension is never empty and the line
   lookup never fails.
   */
  lemma MarkerLineFound(text: string)
    requires Contains(text, Marker)
    ensures FirstLineWith(Split(text, '\n'), Marker, 0).Some?
  {
    var k :| OccursAt(text, Marker, k);
    MarkerHasNoBreak();
    var i := OccursInPiece(Split(text, '\n'), '\n', Marker, k);
  }

  lemma MarkerHasNoBreak()
    ensures '\n' !in Marker
  {
  }

  /** An occurrence of `t` in joined pieces lies within one piece, when `t` holds no separator. */
  lemma {:induction false} OccursInPiece(pieces: seq<string>, c: char, t: string, k: int) returns (i: nat)
    requires |pieces| > 0 && c !in t && OccursAt(Join(pieces, c), t, k)
    ensures i < |pieces| && Contains(pieces[i], t)
    decreases |pieces|
  {
    if |pieces| == 1 {
      i := 0;
    } else {
      var p := pieces[0];
      var rest := Join(pieces[1..], c);
      var s := Join(pieces, c);
      assert s == p + [c] + rest;
      if k + |t| <= |p| {
        assert s[..|p|] == p;
        OccursInSlice(p, t, 0, |p|, k);
        assert p[0..|p|] == p;
        OccursInPrefix(s, p, t, k);
        i := 0;
      } else if k > |p| {
        assert s[|p| + 1..] == rest;
        OccursInSuffix(s, |p| + 1, t, k);
        var i' := OccursInPiece(pieces[1..], c, t, k - |p| - 1);
        i := i' + 1;
      } else {
        Straddles(s, t, k, |p|);
        assert false;
      }
    }
  }

  lemma OccursInPrefix(s: string, p: string, t: string, k: int)
    requires |p| <= |s| && s[..|p|] == p && OccursAt(s, t, k) && k + |t| <= |p|
    ensures Contains(p, t)
  {
    assert p[k..k + |t|] == s[k..k + |t|];
    assert OccursAt(p, t, k);
  }

  lemma OccursInSuffix(s: string, d: nat, t: string, k: int)
    requires d <= k && OccursAt(s, t, k)
    ensures OccursAt(s[d..], t, k - d)
  {
    assert s[d..][k - d..k - d + |t|] == s[k..k + |t|];
  }

  /** An occurrence covering position `pos` has that position's character in it. */
  lemma Straddles(s: string, t: string, k: int, pos: int)
    requires OccursAt(s, t, k) && k <= pos < k + |t|
    ensures s[pos] in t
  {
    assert t[pos - k] == s[k..k + |t|][pos - k] == s[pos];
  }

  /** An occurrence in one piece is an occurrence in the joined text. */
  lemma {:induction false} OccursInJoin(pieces: seq<string>, c: char, i: nat, t: string, k: int)
    requires i < |pieces| && OccursAt(pieces[i], t, k)
    ensures Contains(Join(pieces, c), t)
    decreases i
  {
    var s := Join(pieces, c);
    if |pieces| == 1 {
      assert OccursAt(s, t, k);
    } else {
      var p := pieces[0];
      var rest := Join(pieces[1..], c);
      assert s == p + [c] + rest;
      if i == 0 {
        assert s[..|p|] == p;
        OccursInSlice(s, t, 0, |p|, k);
      } else {
        assert pieces[1..][i - 1] == pieces[i];
        OccursInJoin(pieces[1..], c, i - 1, t, k);
        var k' :| OccursAt(rest, t, k');
        assert s[|p| + 1..|s|] == rest;
        OccursInSlice(s, t, |p| + 1, |s|, k');
      }
    }
  }

  /**
   A text whose first marker line reads `…marker…: n`, with whitespace
   around `n`, counts `n`; later lines make no difference.
   */
  lemma SolvedLineRead(lines: seq<string>, i: nat, a: string, p: string, n: int, q: string)
    requires forall j :: 0 <= j < |lines| ==> '\n' !in lines[j]
    requires i < |lines| && forall j :: 0 <= j < i ==> !Contains(lines[j], Marker)
    requires lines[i] == a + ":" + (p + IntToString(n) + q)
    requires Contains(a, Marker) && ':' !in a && AllSpace(p) && AllSpace(q)
    ensures SolvedCount(Join(lines, '\n')) == n
  {
    SplitJoin(lines, '\n');
    LineHoldsMarker(lines[i], a, p + IntToString(n) + q);
    var k :| OccursAt(lines[i], Marker, k);
    OccursInJoin(lines, '\n', i, Marker, k);
    FirstLineIs(lines, Marker, i);
    ValueAfterColon(a, p, n, q);
  }

  /**
   Whatever the later lines hold, the first line holding the marker alone
   decides the count: the list comprehension's `[0]`.
   */
  lemma FirstMarkerLineDecides(lines: seq<string>, i: nat)
    requires forall j :: 0 <= j < |lines| ==> '\n' !in lines[j]
    requires i < |lines| && Contains(lines[i], Marker)
    requires forall j :: 0 <= j < i ==> !Contains(lines[j], Marker)
    ensures SolvedCount(Join(lines, '\n')) == LineCount(lines[i])
  {
    SplitJoin(lines, '\n');
    var k :| OccursAt(lines[i], Marker, k);
    OccursInJoin(lines, '\n', i, Marker, k);
    FirstLineIs(lines, Marker, i);
  }

  /** A first marker line without ':' counts 0, even when a later marker line is well formed. */
  lemma MalformedFirstMarkerLine(lines: seq<string>, i: nat)
    requires forall j :: 0 <= j < |lines| ==> '\n' !in lines[j]
    requires i < |lines| && Contains(lines[i], Marker) && ':' !in lines[i]
    requires forall j :: 0 <= j < i ==> !Contains(lines[j], Marker)
    ensures SolvedCount(Join(lines, '\n')) == 0
  {
    FirstMarkerLineDecides(lines, i);
    LineCountNoColon(lines[i]);
  }

  /** A line without ':' counts 0: the `[1]` index raises and the error is caught. */
  lemma LineCountNoColon(line: string)
    requires ':' !in line
    ensures LineCount(line) == 0
  {
    SplitNone(line, ':');
  }

  /** Text after the first ':' that is not an integer counts 0: the ValueError is caught. */
  lemma LineCountNotNumber(a: string, v: string)
    requires ':' !in a && ':' !in v && ParseInt(Strip(v)).None?
    ensures LineCount(a + ":" + v) == 0
  {
    assert a + ":" + v == a + [':'] + v;
    SplitCons(a, ':', v);
    SplitNone(v, ':');
  }

  /** The first line holding `t` is found. */
  lemma FirstLineIs(lines: seq<string>, t: string, i: nat)
    requires i < |lines| && Contains(lines[i], t)
    requires forall j :: 0 <= j < i ==> !Contains(lines[j], t)
    ensures FirstLineWith(lines, t, 0) == Some(i)
  {
  }

  lemma LineHoldsMarker(line: string, a: string, v: string)
    requires line == a + ":" + v && Contains(a, Marker)
    ensures Contains(line, Marker)
  {
    var k :| OccursAt(a, Marker, k);
    assert line[0..|a|] == a;
    OccursInSlice(line, Marker, 0, |a|, k);
  }

  /** The text after the first ':' is what is read. */
  lemma ValueAfterColon(a: string, p: string, n: int, q: string)
    requires ':' !in a && AllSpace(p) && AllSpace(q)
    ensures LineCount(a + ":" + (p + IntToString(n) + q)) == n
  {
    var v := p + IntToString(n) + q;
    NoColonInNumber(p, n, q);
    assert a + ":" + v == a + [':'] + v;
    SplitCons(a, ':', v);
    SplitNone(v, ':');
    ParseIntPadded(n, p, q);
  }

  lemma NoColonInNumber(p: string, n: int, q: string)
    requires AllSpace(p) && AllSpace(q)
    ensures ':' !in p + IntToString(n) + q
  {
    var num := IntToString(n);
    var v := p + num + q;
    IntToStringChars(n);
    forall j | 0 <= j < |v| ensures v[j] != ':' {
      if j < |p| { assert v[j] == p[j]; }
      else if j < |p| + |num| { assert v[j] == num[j - |p|]; }
      else { assert v[j] == q[j - |p| - |num|]; }
    }
  }
}

=== FILE: distribution.dfy ===
/**
 The numeric part of rendering the statistics card: the values read from the
 aggregated records with their fallbacks, the total number of solved
 problems, and the Codeforces / LeetCode / others activity percentages.
 The markup template around these values is fixed text and is not modelled.
 */
module Distribution {
  import opened StatRecords
  import opened Rounding

  /** The aggregated statistics, keyed by platform key. */
  type Stats = map<string, StatRecord>

  /** Every value the card template is filled with, besides the usernames and the render date. */
  datatype Summary = Summary(
    cfRating: Value, cfRank: Value, cfProblems: int,
    lcProblems: int, lcEasy: int, lcMedium: int, lcHard: int,
    ccRating: Value, ccRank: Value, ccProblems: int,
    acRating: Value, acRank: Value, acProblems: int,
    csesProblems: int,
    totalProblems: int,
    cfPercent: int, lcPercent: int, othersPercent: int)

  /** A platform's rating, "N/A" when the platform is missing. */
  function RatingOr(stats: Stats, key: string): Value
  {
    if key in stats then stats[key].rating else NA
  }

  /** A platform's rank, "N/A" when the platform is missing. */
  function RankOr(stats: Stats, key: string): Value
  {
    if key in stats then stats[key].rank else NA
  }

  /** A platform's solved count, 0 when the platform is missing. */
  function SolvedOr(stats: Stats, key: string): int
  {
    if key in stats then stats[key].problemsSolved else 0
  }

  /** The LeetCode difficulty counts, 0 each when the record or the fields are missing. */
  function DetailOr(stats: Stats, key: string): LeetCodeDetail
  {
    if key in stats && stats[key].detail.Some? then stats[key].detail.value else NoDetail
  }

  /** The divisor of the percentages: the total, but never below 1. */
  function Denominator(total: int): (d: int)
    ensures d >= 1 && d >= total
    ensures total >= 1 ==> d == total
    ensures total < 1 ==> d == 1
  {
    if total > 1 then total else 1
  }

  /** `round(part / total * 100)` on exact rationals. */
  function Percent(part: int, total: int): (p: int)
    requires total > 0
    ensures -total <= 2 * (100 * part - total * p) <= total
    ensures 2 * (100 * part - total * p) == total || 2 * (100 * part - total * p) == -total ==> p % 2 == 0
  {
    RoundHalfEven(100 * part, total)
  }

  /**
   The card's values: each platform's fields as looked up with their
   fallbacks, the total of the five solved counts, and the three shares.
   */
  function Summarize(stats: Stats): (s: Summary)
    ensures s.cfRating == RatingOr(stats, "codeforces") && s.cfRank == RankOr(stats, "codeforces")
    ensures s.ccRating == RatingOr(stats, "codechef") && s.ccRank == RankOr(stats, "codechef")
    ensures s.acRating == RatingOr(stats, "atcoder") && s.acRank == RankOr(stats, "atcoder")
    ensures s.cfProblems == SolvedOr(stats, "codeforces") && s.lcProblems == SolvedOr(stats, "leetcode")
    ensures s.ccProblems == SolvedOr(stats, "codechef") && s.acProblems == SolvedOr(stats, "atcoder")
    ensures s.csesProblems == SolvedOr(stats, "cses")
    ensures var det := DetailOr(stats, "leetcode");
      s.lcEasy == det.easySolved && s.lcMedium == det.mediumSolved && s.lcHard == det.hardSolved
    ensures s.totalProblems == s.cfProblems + s.lcProblems + s.ccProblems + s.acProblems + s.csesProblems
    ensures s.cfPercent == Percent(s.cfProblems, Denominator(s.totalProblems))
    ensures s.lcPercent == Percent(s.lcProblems, Denominator(s.totalProblems))
    ensures s.cfPercent + s.lcPercent + s.othersPercent == 100
  {
    var cf := SolvedOr(stats, "codeforces");
    var lc := SolvedOr(stats, "leetcode");
    var cc := SolvedOr(stats, "codechef");
    var ac := SolvedOr(stats, "atcoder");
    var cses := SolvedOr(stats, "cses");
    var lcDetail := DetailOr(stats, "leetcode");
    var total := cf + lc + cc + ac + cses;
    var d := Denominator(total);
    var cfPercent := Percent(cf, d);
    var lcPercent := Percent(lc, d);
    Summary(
      RatingOr(stats, "codeforces"), RankOr(stats, "codeforces"), cf,
      lc, lcDetail.easySolved, lcDetail.mediumSolved, lcDetail.hardSolved,
      RatingOr(stats, "codechef"), RankOr(stats, "codechef"), cc,
      RatingOr(stats, "atcoder"), RankOr(stats, "atcoder"), ac,
      cses,
      total,
      cfPercent, lcPercent, 100 - cfPercent - lcPercent)
  }

  /** With nothing solved anywhere the split is 0 / 0 / 100 and nothing is divided by zero. */
  lemma NothingSolvedShares(stats: Stats)
    requires forall k :: k in stats ==> stats[k].problemsSolved == 0
    ensures var s := Summarize(stats);
      s.totalProblems == 0 && s.cfPercent == 0 && s.lcPercent == 0 && s.othersPercent == 100
  {
  }

  /**
   Each missing platform, whichever others are present, reads as rating and
   rank "N/A" and 0 solved, and contributes a 0 share; LeetCode without
   difficulty counts reads as 0 for each difficulty.
   */
  lemma MissingPlatformsDefault(stats: Stats)
    ensures var s := Summarize(stats);
      && ("codeforces" !in stats ==> s.cfRating == NA && s.cfRank == NA && s.cfProblems == 0 && s.cfPercent == 0)
      && ("leetcode" !in stats ==> s.lcProblems == 0 && s.lcPercent == 0)
      && ("leetcode" !in stats || stats["leetcode"].detail.None? ==> s.lcEasy == 0 && s.lcMedium == 0 && s.lcHard == 0)
      && ("codechef" !in stats ==> s.ccRating == NA && s.ccRank == NA && s.ccProblems == 0)
      && ("atcoder" !in stats ==> s.acRating == NA && s.acRank == NA && s.acProblems == 0)
      && ("cses" !in stats ==> s.csesProblems == 0)
  {
    var s := Summarize(stats);
    ZeroShare(Denominator(s.totalProblems));
  }

  /** Nothing out of any whole is a 0 share. */
  lemma ZeroShare(d: int)
    requires d >= 1
    ensures Percent(0, d) == 0
  {
    var p := Percent(0, d);
    if p >= 1 {
      MulMonoLe(d, 1, p);
    } else if p <= -1 {
      MulMonoLe(d, p, -1);
    }
  }

  /** A share of a non-negative part no larger than the whole lies between 0 and 100. */
  lemma ShareInRange(part: int, d: int)
    requires d >= 1 && 0 <= part <= d
    ensures 0 <= Percent(part, d) <= 100
  {
    var p := Percent(part, d);
    if p < 0 {
      MulMonoLe(d, p, -1);
    }
    if p > 100 {
      MulMonoLe(d, 101, p);
    }
  }

  /**
   The two rounded shares of non-negative parts of a whole never add up to more
   than 100, so the "others" share is never negative.
   */
  lemma TwoSharesFit(cf: int, lc: int, d: int)
    requires d >= 1 && 0 <= cf && 0 <= lc && cf + lc <= d
    ensures Percent(cf, d) + Percent(lc, d) <= 100
  {
    var a := Percent(cf, d);
    var b := Percent(lc, d);
    ScaledSum(d, a, b);
    SharesBound(cf, lc, d, a, b, d * a, d * b);
  }

  /** How large `d * a + d * b` is once `a + b` exceeds 100. */
  lemma ScaledSum(d: int, a: int, b: int)
    requires d >= 1
    ensures a + b >= 101 ==> d * a + d * b >= 101 * d
    ensures a + b >= 102 ==> d * a + d * b >= 102 * d
  {
    assert d * a + d * b == d * (a + b);
    if a + b >= 101 {
      MulMonoLe(d, 101, a + b);
    }
    if a + b >= 102 {
      MulMonoLe(d, 102, a + b);
    }
  }

  /**
   The counting behind `TwoSharesFit`, with the products as plain numbers:
   a sum of 101 needs both shares rounded up from exact halves, which makes
   both even.
   */
  lemma SharesBound(cf: int, lc: int, d: int, a: int, b: int, da: int, db: int)
    requires d >= 1 && 0 <= cf && 0 <= lc && cf + lc <= d
    requires -d <= 2 * (100 * cf - da) <= d
    requires 2 * (100 * cf - da) == -d ==> a % 2 == 0
    requires -d <= 2 * (100 * lc - db) <= d
    requires 2 * (100 * lc - db) == -d ==> b % 2 == 0
    requires a + b >= 101 ==> da + db >= 101 * d
    requires a + b >= 102 ==> da + db >= 102 * d
    ensures a + b <= 100
  {
  }

  /**
   Counts 91 and 109 out of 200 are exact ties (45.5 and 54.5), so the model
   rounds both to the even neighbour and "others" is 0. Binary floats compute
   109 / 200 * 100 slightly above 54.5, which the model does not follow.
   */
  lemma TiesOfTwoHundred()
    ensures Percent(91, 200) == 46 && Percent(109, 200) == 54
    ensures 100 - Percent(91, 200) - Percent(109, 200) == 0
  {
  }

  /**
   With non-negative counts every share lies in 0..100; `Summarize` already
   makes them add up to exactly 100.
   */
  lemma SharesWellFormed(stats: Stats)
    requires forall k :: k in stats ==> stats[k].problemsSolved >= 0
    ensures var s := Summarize(stats);
      && 0 <= s.cfPercent <= 100 && 0 <= s.lcPercent <= 100 && 0 <= s.othersPercent <= 100
  {
    var s := Summarize(stats);
    var d := Denominator(s.totalProblems);
    ShareInRange(s.cfProblems, d);
    ShareInRange(s.lcProblems, d);
    TwoSharesFit(s.cfProblems, s.lcProblems, d);
  }
}

=== FILE: leetcode.dfy ===
/**
 The LeetCode extractor: a decoded GraphQL reply becomes one statistics record.
 */
module LeetCodeExtractor {
  import opened StatRecords
  import opened Rounding

  /** One entry of `acSubmissionNum`. */
  datatype Entry = Entry(difficulty: string, count: int, submissions: int)

  /** The matched user: its accepted-submission entries and its profile ranking (None for null). */
  datatype MatchedUser = MatchedUser(acSubmissionNum: seq<Entry>, ranking: Option<int>)

  /**
   The GraphQL call: a transport, HTTP or JSON failure (including a matched user
   without the queried fields), or the decoded body. `hasErrors` says the body has
   an "errors" key; `user` is None when "data" or "matchedUser" is missing or falsy.
   */
  datatype Reply = ReplyFailure | Reply(hasErrors: bool, user: Option<MatchedUser>)

  /** The solved counts the loop keeps. */
  datatype Buckets = Buckets(all: int, easy: int, medium: int, hard: int)

  /** One pass of the loop body: the entry's difficulty picks the bucket it overwrites. */
  function Step(b: Buckets, e: Entry): Buckets
  {
    if e.difficulty == "All" then b.(all := e.count)
    else if e.difficulty == "Easy" then b.(easy := e.count)
    else if e.difficulty == "Medium" then b.(medium := e.count)
    else if e.difficulty == "Hard" then b.(hard := e.count)
    else b
  }

  /** The loop over the entries in order, starting from all-zero buckets. */
  function Tally(entries: seq<Entry>): (b: Buckets)
    ensures (forall i :: 0 <= i < |entries| ==> entries[i].count >= 0) ==>
      b.all >= 0 && b.easy >= 0 && b.medium >= 0 && b.hard >= 0
  {
    if |entries| == 0 then Buckets(0, 0, 0, 0)
    else Step(Tally(entries[..|entries| - 1]), entries[|entries| - 1])
  }

  /** The index of the last entry with the given difficulty. */
  function LastLabelled(entries: seq<Entry>, level: string): (r: Option<nat>)
    ensures r.Some? ==> r.value < |entries| && entries[r.value].difficulty == level
    ensures r.Some? ==> forall j :: r.value < j < |entries| ==> entries[j].difficulty != level
    ensures r.None? ==> forall j :: 0 <= j < |entries| ==> entries[j].difficulty != level
  {
    if |entries| == 0 then None
    else if entries[|entries| - 1].difficulty == level then Some(|entries| - 1)
    else
      var r := LastLabelled(entries[..|entries| - 1], level);
      assert forall j :: 0 <= j < |entries| - 1 ==> entries[..|entries| - 1][j] == entries[j];
      r
  }

  /** The count of the last entry with the given difficulty, 0 when there is none. */
  function CountOf(entries: seq<Entry>, level: string): int
  {
    match LastLabelled(entries, level)
    case None => 0
    case Some(i) => entries[i].count
  }

  /** The loop keeps, for each difficulty, the count of the last entry with that difficulty. */
  lemma {:induction false} TallyLastWins(entries: seq<Entry>)
    ensures Tally(entries) == Buckets(CountOf(entries, "All"), CountOf(entries, "Easy"),
                                      CountOf(entries, "Medium"), CountOf(entries, "Hard"))
    decreases |entries|
  {
    if |entries| > 0 {
      var init := entries[..|entries| - 1];
      var e := entries[|entries| - 1];
      TallyLastWins(init);
      assert entries == init + [e];
      CountOfSnoc(init, e, "All");
      CountOfSnoc(init, e, "Easy");
      CountOfSnoc(init, e, "Medium");
      CountOfSnoc(init, e, "Hard");
    }
  }

  /** A new last entry decides its own difficulty's count and leaves the others alone. */
  lemma CountOfSnoc(init: seq<Entry>, e: Entry, level: string)
    ensures CountOf(init + [e], level) == if e.difficulty == level then e.count else CountOf(init, level)
  {
    var s := init + [e];
    assert s[..|s| - 1] == init;
    assert forall j :: 0 <= j < |init| ==> s[j] == init[j];
  }

  /** An entry with any other difficulty leaves every bucket as it was. */
  lemma OtherLabelIgnored(a: seq<Entry>, e: Entry, b: seq<Entry>)
    requires e.difficulty !in {"All", "Easy", "Medium", "Hard"}
    ensures Tally(a + [e] + b) == Tally(a + b)
  {
    var s := a + [e] + b;
    var t := a + b;
    TallyLastWins(s);
    TallyLastWins(t);
    SameLastLabelled(a, e, b, "All");
    SameLastLabelled(a, e, b, "Easy");
    SameLastLabelled(a, e, b, "Medium");
    SameLastLabelled(a, e, b, "Hard");
  }

  lemma SameLastLabelled(a: seq<Entry>, e: Entry, b: seq<Entry>, level: string)
    requires e.difficulty != level
    ensures CountOf(a + [e] + b, level) == CountOf(a + b, level)
  {
    var s := a + [e] + b;
    var t := a + b;
    var rs := LastLabelled(s, level);
    var rt := LastLabelled(t, level);
    // positions of t map to positions of s, skipping e
    assert forall j :: 0 <= j < |a| ==> s[j] == t[j];
    assert forall j :: |a| <= j < |t| ==> s[j + 1] == t[j];
    if rs.Some? {
      var i := rs.value;
      var i' := if i < |a| then i else i - 1;
      assert t[i'] == s[i];
    }
  }

  /** The sum of `submissions` over the entries labelled "All". */
  function AllSubmissions(entries: seq<Entry>): (n: int)
    ensures (forall i :: 0 <= i < |entries| ==> entries[i].submissions >= 0) ==> n >= 0
    ensures (forall i :: 0 <= i < |entries| ==> entries[i].difficulty != "All") ==> n == 0
  {
    if |entries| == 0 then 0
    else
      var last := entries[|entries| - 1];
      AllSubmissions(entries[..|entries| - 1]) + (if last.difficulty == "All" then last.submissions else 0)
  }

  /** A single entry contributes its submissions exactly when it is labelled "All". */
  lemma AllSubmissionsSingle(e: Entry)
    ensures AllSubmissions([e]) == if e.difficulty == "All" then e.submissions else 0
  {
    assert [e][..0] == [];
  }

  /** The total is a sum: it splits over any division of the entries into two runs. */
  lemma {:induction false} AllSubmissionsAppend(a: seq<Entry>, b: seq<Entry>)
    ensures AllSubmissions(a + b) == AllSubmissions(a) + AllSubmissions(b)
    decreases |b|
  {
    if |b| == 0 {
      assert a + b == a;
    } else {
      var b' := b[..|b| - 1];
      AllSubmissionsAppend(a, b');
      assert (a + b)[..|a + b| - 1] == a + b';
      assert (a + b)[|a + b| - 1] == b[|b| - 1];
    }
  }

  /** `round(solved / submissions * 100, 1)` in tenths of a percent, and 0 without submissions. */
  function AcceptanceTenths(solved: int, submissions: int): (t: int)
    ensures submissions <= 0 ==> t == 0
    ensures submissions > 0 ==> -submissions <= 2 * (1000 * solved - submissions * t) <= submissions
  {
    if submissions > 0 then RoundHalfEven(1000 * solved, submissions) else 0
  }

  /** A falsy ranking (null or 0) reads as "N/A". */
  function RankOf(ranking: Option<int>): (v: Value)
    ensures v == NA <==> ranking.None? || ranking.value == 0
  {
    if ranking.Some? && ranking.value != 0 then Int(ranking.value) else NA
  }

  /** The extractor's `get_stats`. */
  function GetStats(username: string, reply: Reply, now: string): (r: StatRecord)
    ensures r.platform == LeetCode && r.username == username && r.lastUpdated == now && r.detail.Some?
    ensures r.status == Error <==> reply.ReplyFailure? || reply.hasErrors || reply.user.None?
    ensures r.status == Error ==> r == ErrorRecord(LeetCode, username, now)
    ensures r.status == Active ==>
      var entries := reply.user.value.acSubmissionNum;
      && r.rating == Int(r.problemsSolved) && r.maxRating == NA
      && r.problemsSolved == CountOf(entries, "All")
      && r.detail.value.easySolved == CountOf(entries, "Easy")
      && r.detail.value.mediumSolved == CountOf(entries, "Medium")
      && r.detail.value.hardSolved == CountOf(entries, "Hard")
      && r.rank == RankOf(reply.user.value.ranking)
      && (AllSubmissions(entries) <= 0 ==> r.detail.value.acceptanceTenths == 0)
      && r.detail.value.acceptanceTenths == AcceptanceTenths(CountOf(entries, "All"), AllSubmissions(entries))
  {
    if reply.ReplyFailure? || reply.hasErrors || reply.user.None? then
      ErrorRecord(LeetCode, username, now)
    else
      var user := reply.user.value;
      var b := Tally(user.acSubmissionNum);
      TallyLastWins(user.acSubmissionNum);
      var acceptance := AcceptanceTenths(b.all, AllSubmissions(user.acSubmissionNum));
      StatRecord(LeetCode, username, Active, Int(b.all), NA, RankOf(user.ranking), b.all,
                 Some(LeetCodeDetail(b.easy, b.medium, b.hard, acceptance)), now)
  }

  /** Acceptance of a count between 0 and the number of submissions lies between 0.0 and 100.0. */
  lemma AcceptanceInRange(solved: int, submissions: int)
    requires 0 <= solved <= submissions
    ensures 0 <= AcceptanceTenths(solved, submissions) <= 1000
  {
    if submissions > 0 {
      var t := AcceptanceTenths(solved, submissions);
      if t < 0 {
        MulMonoLe(submissions, t, -1);
      }
      if t > 1000 {
        MulMonoLe(submissions, 1001, t);
      }
    }
  }

  /** 50 of 80 accepted with only an "All" and an "Easy" entry: 62.5% and empty buckets stay 0. */
  lemma FiftyOfEighty()
    ensures var r := GetStats("u", Reply(false, Some(MatchedUser(
        [Entry("All", 50, 80), Entry("Easy", 30, 40)], Some(1234)))), "t");
      && r.status == Active && r.problemsSolved == 50
      && r.detail.value == LeetCodeDetail(30, 0, 0, 625)
  {
    var entries := [Entry("All", 50, 80), Entry("Easy", 30, 40)];
    assert entries[..1] == [Entry("All", 50, 80)];
    assert [Entry("All", 50, 80)][..0] == [];
    assert AllSubmissions(entries) == 80;
    assert RoundHalfEven(1000 * 50, 80) == 625;
  }
}

=== FILE: pytext.dfy ===
/**
 The handful of Python string operations the extractors rely on, over
 `seq<char>`: substring test (`in`), `split(sep)`, `split()`, `strip()`,
 `int(...)` and `str(int)`.
 */
module PyText {
  import opened StatRecords

  /**
   Python's `str.isspace` for a single character: the set `strip` and `split()`
   skip. `int` skips all of it except the information separators.
   */
  predicate IsSpace(c: char)
  {
    || c == ' '
    || ('\t' <= c <= '\r')
    || ('\U{1C}' <= c <= '\U{1F}')
    || c == '\U{85}' || c == '\U{A0}' || c == '\U{1680}'
    || ('\U{2000}' <= c <= '\U{200A}')
    || c == '\U{2028}' || c == '\U{2029}' || c == '\U{202F}' || c == '\U{205F}' || c == '\U{3000}'
  }

  /**
   U+001C to U+001F: whitespace to `str.isspace`, but `int` skips only the
   other whitespace characters and rejects a text holding one of these.
   */
  predicate IsInfoSeparator(c: char)
  {
    '\U{1C}' <= c <= '\U{1F}'
  }

  predicate NoInfoSeparator(s: string)
  {
    forall i :: 0 <= i < |s| ==> !IsInfoSeparator(s[i])
  }

  predicate AllSpace(s: string)
  {
    forall i :: 0 <= i < |s| ==> IsSpace(s[i])
  }

  predicate NoSpace(s: string)
  {
    forall i :: 0 <= i < |s| ==> !IsSpace(s[i])
  }

  predicate IsDigit(c: char)
  {
    '0' <= c <= '9'
  }

  predicate AllDigits(s: string)
  {
    forall i :: 0 <= i < |s| ==> IsDigit(s[i])
  }

  // ---------------------------------------------------------------------------
  // Substring search: `t in s`

  /** `t` occurs in `s` starting at index `k`. */
  predicate OccursAt(s: string, t: string, k: int)
  {
    0 <= k && k + |t| <= |s| && s[k..k + |t|] == t
  }

  /** The first index at or after `from` where `t` occurs in `s`. */
  function Find(s: string, t: string, from: nat): (r: Option<nat>)
    ensures r.Some? ==> from <= r.value && OccursAt(s, t, r.value)
    ensures r.Some? ==> forall k :: from <= k < r.value ==> !OccursAt(s, t, k)
    ensures r.None? ==> forall k :: from <= k ==> !OccursAt(s, t, k)
    decreases |s| - from
  {
    if from + |t| > |s| then None
    else if s[from..from + |t|] == t then Some(from)
    else Find(s, t, from + 1)
  }

  /** Python's `t in s`. */
  function Contains(s: string, t: string): (b: bool)
    ensures b <==> exists k :: OccursAt(s, t, k)
  {
    var r := Find(s, t, 0);
    assert r.Some? ==> OccursAt(s, t, r.value);
    r.Some?
  }

  /** For a one-character needle, `in` is membership of that character. */
  lemma ContainsChar(s: string, c: char)
    ensures Contains(s, [c]) <==> c in s
  {
    if c in s {
      var k :| 0 <= k < |s| && s[k] == c;
      assert OccursAt(s, [c], k);
    }
    if Contains(s, [c]) {
      var k :| OccursAt(s, [c], k);
      assert s[k] == s[k..k + 1][0] == c;
    }
  }

  /** An occurrence inside a slice of `s` is an occurrence in `s`. */
  lemma OccursInSlice(s: string, t: string, a: nat, b: nat, k: int)
    requires a <= b <= |s|
    requires OccursAt(s[a..b], t, k)
    ensures OccursAt(s, t, a + k)
  {
    var u := s[a..b];
    forall j | 0 <= j < |t|
      ensures s[a + k + j] == t[j]
    {
      assert u[k..k + |t|][j] == u[k + j] == s[a + k + j];
    }
    assert s[a + k..a + k + |t|] == t;
  }

  // ---------------------------------------------------------------------------
  // `s.split(c)` for a one-character separator, and its inverse `c.join(...)`

  /** The index of the first `c` in `s`. */
  function IndexOf(s: string, c: char): (r: Option<nat>)
    ensures r.Some? ==> r.value < |s| && s[r.value] == c && c !in s[..r.value]
    ensures r.None? ==> c !in s
  {
    if |s| == 0 then None
    else if s[0] == c then Some(0)
    else match IndexOf(s[1..], c)
      case None => None
      case Some(i) =>
        assert s[..i + 1] == [s[0]] + s[1..][..i];
        Some(i + 1)
  }

  /** Python's `c.join(pieces)`. */
  function Join(pieces: seq<string>, c: char): string
  {
    if |pieces| == 0 then ""
    else if |pieces| == 1 then pieces[0]
    else pieces[0] + [c] + Join(pieces[1..], c)
  }

  /** Python's `s.split(c)`: the pieces between separators, empty ones kept, never an empty list. */
  function Split(s: string, c: char): (r: seq<string>)
    ensures |r| == multiset(s)[c] + 1
    ensures forall i :: 0 <= i < |r| ==> c !in r[i]
    ensures Join(r, c) == s
    decreases |s|
  {
    match IndexOf(s, c)
    case None => [s]
    case Some(i) =>
      var rest := Split(s[i + 1..], c);
      assert s == s[..i] + [c] + s[i + 1..];
      assert multiset(s) == multiset(s[..i]) + multiset([c]) + multiset(s[i + 1..]);
      [s[..i]] + rest
  }

  /** A character of any piece is a character of the joined text. */
  lemma {:induction false} CharInJoin(pieces: seq<string>, c: char, i: nat, x: char)
    requires i < |pieces| && x in pieces[i]
    ensures x in Join(pieces, c)
    decreases |pieces|
  {
    if |pieces| > 1 {
      var rest := Join(pieces[1..], c);
      assert Join(pieces, c) == pieces[0] + [c] + rest;
      if i > 0 {
        CharInJoin(pieces[1..], c, i - 1, x);
      }
    }
  }

  lemma JoinCons(p: string, rest: seq<string>, c: char)
    requires |rest| > 0
    ensures Join([p] + rest, c) == p + [c] + Join(rest, c)
  {
    assert ([p] + rest)[1..] == rest;
  }

  /** Splitting a joined list gives the pieces back, when no piece holds the separator. */
  lemma {:induction false} SplitJoin(pieces: seq<string>, c: char)
    requires |pieces| > 0
    requires forall i :: 0 <= i < |pieces| ==> c !in pieces[i]
    ensures Split(Join(pieces, c), c) == pieces
    decreases |pieces|
  {
    if |pieces| == 1 {
      assert IndexOf(pieces[0], c).None?;
    } else {
      var p := pieces[0];
      var rest := Join(pieces[1..], c);
      assert Join(pieces, c) == p + [c] + rest;
      SplitCons(p, c, rest);
      SplitJoin(pieces[1..], c);
      assert pieces == [p] + pieces[1..];
    }
  }

  /** A separator-free prefix followed by the separator is the first piece. */
  lemma SplitCons(p: string, c: char, rest: string)
    requires c !in p
    ensures Split(p + [c] + rest, c) == [p] + Split(rest, c)
  {
    var s := p + [c] + rest;
    IndexOfAfter(p, c, rest);
    assert s[..|p|] == p && s[|p| + 1..] == rest;
  }

  /** The first separator is the one right after a separator-free prefix. */
  lemma {:induction false} IndexOfAfter(p: string, c: char, rest: string)
    requires c !in p
    ensures IndexOf(p + [c] + rest, c) == Some(|p|)
    decreases |p|
  {
    var s := p + [c] + rest;
    if |p| > 0 {
      assert s[0] == p[0] && s[1..] == p[1..] + [c] + rest;
      IndexOfAfter(p[1..], c, rest);
    }
  }

  /** Without the separator there is exactly one piece, the text itself. */
  lemma SplitNone(s: string, c: char)
    requires c !in s
    ensures Split(s, c) == [s]
  {
  }

  /**
   The first piece is the text up to the first separator: a prefix of `s`
   that reaches at least as far as any separator-free prefix.
   */
  lemma SplitHead(s: string, c: char, m: nat)
    requires m <= |s| && c !in s[..m]
    ensures |Split(s, c)[0]| >= m && Split(s, c)[0] == s[..|Split(s, c)[0]|]
  {
  }

  // ---------------------------------------------------------------------------
  // `s.strip()`

  /** The number of whitespace characters `s` starts with. */
  function LeadingSpace(s: string): (n: nat)
    ensures n <= |s| && forall i :: 0 <= i < n ==> IsSpace(s[i])
    ensures n < |s| ==> !IsSpace(s[n])
  {
    if |s| == 0 || !IsSpace(s[0]) then 0
    else
      var m := LeadingSpace(s[1..]);
      assert forall i :: 1 <= i <= m ==> s[i] == s[1..][i - 1];
      m + 1
  }

  /** The number of whitespace characters `s` ends with. */
  function TrailingSpace(s: string): (n: nat)
    ensures n <= |s| && forall i :: |s| - n <= i < |s| ==> IsSpace(s[i])
    ensures n < |s| ==> !IsSpace(s[|s| - n - 1])
  {
    if |s| == 0 || !IsSpace(s[|s| - 1]) then 0
    else
      var t := s[..|s| - 1];
      var m := TrailingSpace(t);
      assert forall i :: 0 <= i < |t| ==> s[i] == t[i];
      m + 1
  }

  /** Text with no whitespace at either end. */
  predicate Trimmed(w: string)
  {
    w == [] || (!IsSpace(w[0]) && !IsSpace(w[|w| - 1]))
  }

  /** Python's `s.strip()`: the text with surrounding whitespace removed. */
  function Strip(s: string): (r: string)
    ensures Trimmed(r)
    ensures r == [] <==> AllSpace(s)
  {
    var a := LeadingSpace(s);
    if a == |s| then ""
    else
      var b := |s| - TrailingSpace(s);
      assert !IsSpace(s[a]);
      s[a..b]
  }

  /** Stripping only removes characters. */
  lemma StripKeeps(s: string, c: char)
    ensures c in Strip(s) ==> c in s
  {
    var r := Strip(s);
    if c in r {
      var a := LeadingSpace(s);
      var b := |s| - TrailingSpace(s);
      assert a < |s| && r == s[a..b];
      var i :| 0 <= i < |r| && r[i] == c;
      assert s[a + i] == c;
    }
  }

  lemma {:induction false} LeadingSpacePadded(p: string, w: string)
    requires AllSpace(p) && |w| > 0 && !IsSpace(w[0])
    ensures LeadingSpace(p + w) == |p|
    decreases |p|
  {
    if |p| > 0 {
      assert (p + w)[1..] == p[1..] + w;
      LeadingSpacePadded(p[1..], w);
    }
  }

  lemma {:induction false} TrailingSpacePadded(w: string, q: string)
    requires AllSpace(q) && |w| > 0 && !IsSpace(w[|w| - 1])
    ensures TrailingSpace(w + q) == |q|
    decreases |q|
  {
    if |q| > 0 {
      assert (w + q)[..|w + q| - 1] == w + q[..|q| - 1];
      TrailingSpacePadded(w, q[..|q| - 1]);
    }
  }

  /** Stripping padding gives back exactly the trimmed text it surrounds. */
  lemma StripPadded(p: string, w: string, q: string)
    requires AllSpace(p) && AllSpace(q) && Trimmed(w)
    ensures Strip(p + w + q) == w
  {
    var s := p + w + q;
    if w == [] {
      assert AllSpace(s) by {
        forall i | 0 <= i < |s| ensures IsSpace(s[i]) {
          if i < |p| { assert s[i] == p[i]; } else { assert s[i] == q[i - |p|]; }
        }
      }
    } else {
      assert s == p + (w + q);
      LeadingSpacePadded(p, w + q);
      assert s == (p + w) + q;
      TrailingSpacePadded(p + w, q);
      assert s[|p|..|p| + |w|] == w;
    }
  }

  /** Stripping twice is stripping once. */
  lemma StripIdempotent(s: string)
    ensures Strip(Strip(s)) == Strip(s)
  {
    var w := Strip(s);
    StripPadded("", w, "");
    assert "" + w + "" == w;
  }

  // ---------------------------------------------------------------------------
  // `s.split()` with no separator

  /** The length of the run of non-whitespace characters `s` starts with. */
  function WordLength(s: string): (n: nat)
    ensures n <= |s| && NoSpace(s[..n])
    ensures n < |s| ==> IsSpace(s[n])
  {
    if |s| == 0 || IsSpace(s[0]) then 0
    else
      var m := WordLength(s[1..]);
      assert s[..m + 1] == [s[0]] + s[1..][..m];
      m + 1
  }

  /** Python's `s.split()`: the maximal runs of non-whitespace characters, in order. */
  function Words(s: string): (r: seq<string>)
    ensures forall i :: 0 <= i < |r| ==> |r[i]| > 0 && NoSpace(r[i])
    ensures r == [] <==> AllSpace(s)
    decreases |s|
  {
    if |s| == 0 then []
    else if IsSpace(s[0]) then
      var rest := Words(s[1..]);
      assert AllSpace(s) <==> AllSpace(s[1..]) by {
        if AllSpace(s[1..]) {
          forall i | 0 <= i < |s| ensures IsSpace(s[i]) {
            if i > 0 { assert s[i] == s[1..][i - 1]; }
          }
        }
      }
      rest
    else
      var n := WordLength(s);
      [s[..n]] + Words(s[n..])
  }

  /** `split()` after joining words with single spaces gives the words back. */
  lemma {:induction false} WordsJoin(ws: seq<string>)
    requires forall i :: 0 <= i < |ws| ==> |ws[i]| > 0 && NoSpace(ws[i])
    ensures Words(Join(ws, ' ')) == ws
    decreases |ws|
  {
    if |ws| == 1 {
      WordsCons(ws[0], "");
      assert ws[0] + "" == ws[0];
    } else if |ws| > 1 {
      WordsJoin(ws[1..]);
      WordsJoinStep(ws[0], ws[1..]);
      assert ws == [ws[0]] + ws[1..];
    }
  }

  /** One more word in front of a space-joined list is one more word in front of its words. */
  lemma WordsJoinStep(w: string, tail: seq<string>)
    requires |w| > 0 && NoSpace(w) && |tail| > 0
    requires Words(Join(tail, ' ')) == tail
    ensures Words(Join([w] + tail, ' ')) == [w] + tail
  {
    JoinCons(w, tail, ' ');
    WordThenSpace(w, Join(tail, ' '));
  }

  /** A word, one space, then any text: the word and then the text's words. */
  lemma WordThenSpace(w: string, rest: string)
    requires |w| > 0 && NoSpace(w)
    ensures Words(w + [' '] + rest) == [w] + Words(rest)
  {
    var t := [' '] + rest;
    assert w + [' '] + rest == w + t;
    WordsCons(w, t);
    WordsSkipSpace(rest);
  }

  /** Leading whitespace is not a word. */
  lemma WordsSkipSpace(rest: string)
    ensures Words([' '] + rest) == Words(rest)
  {
    assert ([' '] + rest)[1..] == rest;
  }

  /**
   Whitespace of any kind and length before the text adds no word. With
   `WordsCons` this determines `split()` on every text: a text is some
   whitespace, then either nothing or a word followed by whitespace or the end.
   */
  lemma {:induction false} WordsSkipSpaces(p: string, s: string)
    requires AllSpace(p)
    ensures Words(p + s) == Words(s)
    decreases |p|
  {
    if |p| > 0 {
      var t := p + s;
      assert IsSpace(t[0]);
      assert t[1..] == p[1..] + s;
      WordsSkipSpaces(p[1..], s);
    } else {
      assert p + s == s;
    }
  }

  /** A word followed by whitespace or the end is the first word. */
  lemma WordsCons(w: string, rest: string)
    requires |w| > 0 && NoSpace(w)
    requires rest == [] || IsSpace(rest[0])
    ensures Words(w + rest) == [w] + Words(rest)
  {
    var s := w + rest;
    WordLengthOfWord(w, rest);
    assert s[0] == w[0];
    assert s[|w|..] == rest;
  }

  lemma {:induction false} WordLengthOfWord(w: string, rest: string)
    requires |w| > 0 && NoSpace(w)
    requires rest == [] || IsSpace(rest[0])
    ensures WordLength(w + rest) == |w| && (w + rest)[..|w|] == w
    decreases |w|
  {
    assert (w + rest)[1..] == w[1..] + rest;
    if |w| > 1 {
      WordLengthOfWord(w[1..], rest);
    }
  }

  // ---------------------------------------------------------------------------
  // `int(s)` and `str(n)`

  /** The value of a string of ASCII decimal digits, most significant first. */
  function DigitsValue(ds: string): (v: nat)
    requires AllDigits(ds)
  {
    if |ds| == 0 then 0
    else DigitsValue(ds[..|ds| - 1]) * 10 + (ds[|ds| - 1] as int - '0' as int)
  }

  /** The text of an integer: an optional sign, then one or more ASCII digits. */
  predicate IntText(t: string)
  {
    var ds := if |t| > 0 && (t[0] == '-' || t[0] == '+') then t[1..] else t;
    |ds| > 0 && AllDigits(ds)
  }

  /**
   Python's `int(s)` on text: surrounding whitespace, an optional sign, then at
   least one ASCII digit. An information separator anywhere makes it fail.
   */
  function ParseInt(s: string): (r: Option<int>)
    ensures r.Some? <==> NoInfoSeparator(s) && IntText(Strip(s))
    ensures r.Some? ==> (r.value < 0 ==> Strip(s)[0] == '-')
  {
    if NoInfoSeparator(s) then ParseTrimmed(Strip(s)) else None
  }

  /** The text of an integer holds no information separator. */
  lemma IntTextNoSeparator(t: string)
    requires IntText(t)
    ensures NoInfoSeparator(t)
  {
    var ds := if t[0] == '-' || t[0] == '+' then t[1..] else t;
    forall i | 0 <= i < |t|
      ensures !IsInfoSeparator(t[i])
    {
      if ds == t[1..] && i > 0 {
        assert t[i] == ds[i - 1];
      }
    }
  }

  /** A separator in front of a number is not skipped: `int("\x1c5")` raises. */
  lemma SeparatorRejected(n: int)
    ensures ParseInt(['\U{1C}'] + IntToString(n)) == None
    ensures Strip(['\U{1C}'] + IntToString(n)) == IntToString(n)
  {
    var s := IntToString(n);
    var t := ['\U{1C}'] + s;
    assert IsInfoSeparator(t[0]);
    IntTextNoSeparator(s);
    IntToStringChars(n);
    StripPadded(['\U{1C}'], s, "");
    assert ['\U{1C}'] + s + "" == t;
  }

  /** `int` once the whitespace is gone: an optional sign, then at least one digit. */
  function ParseTrimmed(t: string): (r: Option<int>)
    ensures r.Some? <==> IntText(t)
    ensures r.Some? ==> (r.value < 0 ==> t[0] == '-')
  {
    if |t| > 0 && (t[0] == '-' || t[0] == '+') then
      var ds := t[1..];
      if |ds| > 0 && AllDigits(ds) then
        var v: int := DigitsValue(ds);
        Some(if t[0] == '-' then -v else v)
      else None
    else if |t| > 0 && AllDigits(t) then Some(DigitsValue(t))
    else None
  }

  /** Python's `str(n)` for a natural number: its decimal digits, no leading zeros. */
  function NatToString(n: nat): (s: string)
    ensures |s| > 0 && AllDigits(s)
  {
    if n < 10 then [('0' as int + n) as char]
    else NatToString(n / 10) + [('0' as int + n % 10) as char]
  }

  /** Python's `str(n)` for any integer. */
  function IntToString(n: int): (s: string)
    ensures |s| > 0
    ensures s[0] == '-' <==> n < 0
    ensures IntText(s)
  {
    if n < 0 then "-" + NatToString(-n) else NatToString(n)
  }

  lemma {:induction false} NatToStringValue(n: nat)
    ensures DigitsValue(NatToString(n)) == n
  {
    if n >= 10 {
      var s := NatToString(n);
      NatToStringValue(n / 10);
      assert s[..|s| - 1] == NatToString(n / 10);
    }
  }

  /** A numeral's value is its digits read in base ten, negated after a '-' and unchanged after a '+'. */
  lemma ParseTrimmedValue(ds: string)
    requires |ds| > 0 && AllDigits(ds)
    ensures ParseTrimmed(ds) == Some(DigitsValue(ds))
    ensures ParseTrimmed("+" + ds) == Some(DigitsValue(ds))
    ensures ParseTrimmed("-" + ds) == Some(-(DigitsValue(ds) as int))
  {
    UnsignedValue(ds);
    SignedValue(ds, '+');
    SignedValue(ds, '-');
  }

  lemma UnsignedValue(ds: string)
    requires |ds| > 0 && AllDigits(ds)
    ensures ParseTrimmed(ds) == Some(DigitsValue(ds))
  {
    assert IsDigit(ds[0]);
  }

  lemma SignedValue(ds: string, sign: char)
    requires |ds| > 0 && AllDigits(ds) && (sign == '+' || sign == '-')
    ensures ParseTrimmed([sign] + ds)
      == Some(if sign == '-' then -(DigitsValue(ds) as int) else DigitsValue(ds))
  {
    var t := [sign] + ds;
    assert t[0] == sign && t[1..] == ds;
  }

  /** Leading zeros do not change the value. */
  lemma {:induction false} DigitsValueLeadingZero(ds: string)
    requires AllDigits(ds)
    ensures AllDigits("0" + ds) && DigitsValue("0" + ds) == DigitsValue(ds)
    decreases |ds|
  {
    var z := "0" + ds;
    assert forall i :: 0 < i < |z| ==> z[i] == ds[i - 1];
    if |ds| > 0 {
      var init := ds[..|ds| - 1];
      assert forall i :: 0 <= i < |init| ==> init[i] == ds[i];
      DigitsValueLeadingZero(init);
      assert z[..|z| - 1] == "0" + init;
    }
  }

  /** `int` reads non-canonical numerals too: a '+' sign, leading zeros, and "-0". */
  lemma NonCanonicalNumerals()
    ensures ParseInt("+7") == Some(7) && ParseInt("007") == Some(7) && ParseInt("-0") == Some(0)
  {
    PlusSeven();
    ZeroZeroSeven();
    MinusZero();
  }

  /** A text with no surrounding whitespace is parsed as it is. */
  lemma ParseIntTrimmed(t: string)
    requires Trimmed(t)
    ensures ParseInt(t) == ParseTrimmed(t)
  {
    if IntText(t) {
      IntTextNoSeparator(t);
    }
    StripPadded("", t, "");
    assert "" + t + "" == t;
  }

  lemma PlusSeven()
    ensures ParseInt("+7") == Some(7)
  {
    ParseIntTrimmed("+7");
    SignedValue("7", '+');
    assert ['+'] + "7" == "+7";
    assert DigitsValue("7") == 7;
  }

  lemma ZeroZeroSeven()
    ensures ParseInt("007") == Some(7)
  {
    ParseIntTrimmed("007");
    LeadingZerosOfSeven();
    UnsignedValue("007");
  }

  lemma LeadingZerosOfSeven()
    ensures AllDigits("007") && DigitsValue("007") == 7
  {
    DigitsValueLeadingZero("7");
    DigitsValueLeadingZero("07");
    assert "0" + "7" == "07" && "0" + "07" == "007";
    assert DigitsValue("7") == 7;
  }

  lemma MinusZero()
    ensures ParseInt("-0") == Some(0)
  {
    ParseIntTrimmed("-0");
    SignedValue("0", '-');
    assert ['-'] + "0" == "-0";
    assert DigitsValue("0") == 0;
  }

  /** Printing then reading back an integer gives the integer. */
  lemma ParseTrimmedToString(n: int)
    ensures ParseTrimmed(IntToString(n)) == Some(n)
  {
    var m: nat := if n < 0 then -n else n;
    NatToStringValue(m);
    if n < 0 {
      assert IntToString(n)[1..] == NatToString(m);
    }
  }

  /** `int(str(n)) == n`. */
  lemma ParseIntOfString(n: int)
    ensures ParseInt(IntToString(n)) == Some(n)
  {
    var s := IntToString(n);
    IntToStringChars(n);
    IntTextNoSeparator(s);
    StripPadded("", s, "");
    assert "" + s + "" == s;
    ParseTrimmedToString(n);
  }

  /** A number with whitespace around it, stripped and parsed, is that number. */
  lemma ParseIntPadded(n: int, p: string, q: string)
    requires AllSpace(p) && AllSpace(q)
    ensures Strip(p + IntToString(n) + q) == IntToString(n)
    ensures ParseInt(Strip(p + IntToString(n) + q)) == Some(n)
  {
    var s := IntToString(n);
    IntToStringChars(n);
    StripPadded(p, s, q);
    StripPadded("", s, "");
    assert "" + s + "" == s;
    IntTextNoSeparator(s);
    assert ParseInt(s) == ParseTrimmed(s);
    ParseTrimmedToString(n);
  }

  /** Decimal rendering is injective: distinct integers print differently. */
  lemma IntToStringInjective(a: int, b: int)
    requires IntToString(a) == IntToString(b)
    ensures a == b
  {
    ParseTrimmedToString(a);
    ParseTrimmedToString(b);
  }

  /** A printed integer contains no character other than a leading minus and digits. */
  lemma IntToStringChars(n: int)
    ensures forall i :: 0 <= i < |IntToString(n)| ==> IsDigit(IntToString(n)[i]) || (i == 0 && n < 0)
    ensures IntToString(n)[0] == '-' <==> n < 0
  {
  }
}

=== FILE: readme_patch.dfy ===
/**
 `update_readme_section` as a pure text transform: create the document,
 replace every header-started section in it, or append a new section.
 The replacement is the regular-expression substitution of
 `(header.*?)(?=^#|\Z)` under MULTILINE and DOTALL, written out as a
 left-to-right scan.
 */
module ReadmePatch {
  import opened StatRecords
  import opened PyText

  /** The default section header. */
  const SectionHeader: string := "## Competitive Programming Stats"

  /**
   Where the lookahead `(?=^#|\Z)` succeeds: at the end of the text, or at a
   '#' that starts a line (the start of the text, or just after a '\n').
   */
  predicate IsSectionStop(t: string, j: int)
  {
    j == |t| || (0 <= j < |t| && t[j] == '#' && (j == 0 || t[j - 1] == '\n'))
  }

  /** Where the lazy `.*?` stops: the first index at or after `from` where the lookahead succeeds. */
  function SectionEnd(t: string, from: nat): (e: nat)
    requires from <= |t|
    ensures from <= e <= |t| && IsSectionStop(t, e)
    ensures forall j :: from <= j < e ==> !IsSectionStop(t, j)
    decreases |t| - from
  {
    if IsSectionStop(t, from) then from else SectionEnd(t, from + 1)
  }

  /** The first occurrence of the header at or after `pos`. */
  predicate FirstHeaderAt(t: string, header: string, pos: int, k: int)
  {
    pos <= k && OccursAt(t, header, k) && forall j :: pos <= j < k ==> !OccursAt(t, header, j)
  }

  /**
   The substitution applied to `t[pos..]`: search for the header, replace it
   and everything up to the next stop by `md`, and carry on after the match.
   */
  function SubFrom(t: string, header: string, md: string, pos: nat): string
    requires |header| > 0 && pos <= |t|
    decreases |t| - pos
  {
    match Find(t, header, pos)
    case None => t[pos..]
    case Some(k) =>
      var e := SectionEnd(t, k + |header|);
      t[pos..k] + md + SubFrom(t, header, md, e)
  }

  /** With no header left the rest of the text is copied as it is. */
  lemma SubFromNoHeader(t: string, header: string, md: string, pos: nat)
    requires |header| > 0 && pos <= |t|
    requires forall j :: pos <= j ==> !OccursAt(t, header, j)
    ensures SubFrom(t, header, md, pos) == t[pos..]
  {
    assert Find(t, header, pos).None?;
  }

  /** The text up to the next header is kept, and `md` stands where the header stood. */
  lemma SubFromKeepsPrefix(t: string, header: string, md: string, pos: nat, k: nat)
    requires |header| > 0 && pos <= |t|
    requires FirstHeaderAt(t, header, pos, k)
    ensures var r := SubFrom(t, header, md, pos);
      |r| >= k - pos + |md| && r[..k - pos] == t[pos..k] && r[k - pos..k - pos + |md|] == md
  {
    FindIs(t, header, pos, k);
    var rest := SubFrom(t, header, md, SectionEnd(t, k + |header|));
    var r := t[pos..k] + md + rest;
    assert r[..k - pos] == t[pos..k];
    assert r[k - pos..k - pos + |md|] == md;
  }

  /** `re.sub(pattern, md, t, flags=re.MULTILINE | re.DOTALL)`. */
  function ReplaceSections(t: string, header: string, md: string): (r: string)
    requires |header| > 0
    ensures (forall j :: !OccursAt(t, header, j)) ==> r == t
    ensures forall k :: FirstHeaderAt(t, header, 0, k) ==>
      |r| >= k + |md| && r[..k] == t[..k] && r[k..k + |md|] == md
  {
    if !Contains(t, header) then
      SubFromNoHeader(t, header, md, 0);
      SubFrom(t, header, md, 0)
    else
      var k := FirstHeader(t, header);
      SubFromKeepsPrefix(t, header, md, 0, k);
      FirstHeaderUnique(t, header, k);
      SubFrom(t, header, md, 0)
  }

  /** There is only one first occurrence. */
  lemma FirstHeaderUnique(t: string, header: string, k: nat)
    requires FirstHeaderAt(t, header, 0, k)
    ensures forall k' :: FirstHeaderAt(t, header, 0, k') ==> k' == k
  {
  }

  /** One match: the first header at or after `pos`, through to the next stop, becomes `md`. */
  lemma SubFromStep(t: string, header: string, md: string, pos: nat, k: nat)
    requires |header| > 0 && pos <= |t|
    requires FirstHeaderAt(t, header, pos, k)
    ensures k + |header| <= |t|
    ensures SubFrom(t, header, md, pos) == t[pos..k] + md + SubFrom(t, header, md, SectionEnd(t, k + |header|))
  {
    FindIs(t, header, pos, k);
  }

  lemma FindIs(t: string, header: string, pos: nat, k: nat)
    requires FirstHeaderAt(t, header, pos, k)
    ensures Find(t, header, pos) == Some(k)
  {
  }

  lemma SectionEndIs(t: string, from: nat, e: nat)
    requires from <= e <= |t| && IsSectionStop(t, e)
    requires forall j :: from <= j < e ==> !IsSectionStop(t, j)
    ensures SectionEnd(t, from) == e
  {
  }

  /**
   A document with a single header occurrence: everything before the header
   and everything from the stopping heading on are kept, and the section in
   between becomes `md`.
   */
  lemma SingleSection(t: string, header: string, md: string, k: nat, e: nat)
    requires |header| > 0
    requires FirstHeaderAt(t, header, 0, k)
    requires k + |header| <= e <= |t| && IsSectionStop(t, e)
    requires forall j :: k + |header| <= j < e ==> !IsSectionStop(t, j)
    requires forall j :: e <= j ==> !OccursAt(t, header, j)
    ensures ReplaceSections(t, header, md) == t[..k] + md + t[e..]
  {
    SingleSectionScan(t, header, md, k, e);
  }

  lemma SingleSectionScan(t: string, header: string, md: string, k: nat, e: nat)
    requires |header| > 0
    requires FirstHeaderAt(t, header, 0, k)
    requires k + |header| <= e <= |t| && IsSectionStop(t, e)
    requires forall j :: k + |header| <= j < e ==> !IsSectionStop(t, j)
    requires forall j :: e <= j ==> !OccursAt(t, header, j)
    ensures SubFrom(t, header, md, 0) == t[..k] + md + t[e..]
  {
    SubFromStep(t, header, md, 0, k);
    SectionEndIs(t, k + |header|, e);
    SubFromNoHeader(t, header, md, e);
  }

  /** The first header occurrence in a text that contains the header. */
  function FirstHeader(t: string, header: string): (k: nat)
    requires Contains(t, header)
    ensures FirstHeaderAt(t, header, 0, k)
  {
    var f := Find(t, header, 0);
    assert f.Some? by {
      var j :| OccursAt(t, header, j);
    }
    f.value
  }

  /** The outcome of the call: the document's new content (returns True), or an I/O error (returns False). */
  datatype PatchResult = Written(content: string) | Failed

  /**
   `update_readme_section`. `existing` is the current document (None when
   the file does not exist) and `ioFails` says whether reading or writing
   it raises.
   */
  function UpdateReadmeSection(existing: Option<string>, md: string, header: string, ioFails: bool): (r: PatchResult)
    requires |header| > 0
    ensures r.Failed? <==> ioFails
    ensures r.Written? && existing.None? ==> r.content == md + "\n"
    ensures r.Written? && existing.Some? && !Contains(existing.value, header) ==>
      r.content == existing.value + "\n" + md + "\n"
    ensures r.Written? && existing.Some? && Contains(existing.value, header) ==>
      r.content == ReplaceSections(existing.value, header, md)
    ensures r.Written? && existing.Some? ==> forall k :: FirstHeaderAt(existing.value, header, 0, k) ==>
      |r.content| >= k + |md| && r.content[..k] == existing.value[..k] && r.content[k..k + |md|] == md
  {
    if ioFails then Failed
    else match existing
      case None => Written(md + "\n")
      case Some(t) =>
        if Contains(t, header) then
          Written(ReplaceSections(t, header, md))
        else Written(t + "\n" + md + "\n")
  }

  /**
   A section that already reads `md` is left as it is: the document is a
   fixed point when its single section is the new text.
   */
  lemma CurrentSectionUnchanged(t: string, header: string, k: nat, e: nat)
    requires |header| > 0
    requires FirstHeaderAt(t, header, 0, k)
    requires k + |header| <= e <= |t| && IsSectionStop(t, e)
    requires forall j :: k + |header| <= j < e ==> !IsSectionStop(t, j)
    requires forall j :: e <= j ==> !OccursAt(t, header, j)
    ensures ReplaceSections(t, header, t[k..e]) == t
  {
    SingleSection(t, header, t[k..e], k, e);
    assert t[..k] + t[k..e] + t[e..] == t;
  }

  /** With no file the document is created holding the new text and a line break. */
  lemma CreateScenario()
    ensures UpdateReadmeSection(None, "## Stats\nHello", SectionHeader, false) == Written("## Stats\nHello\n")
  {
  }

  /** The document of the replace scenario, in its three parts. */
  const IntroPart: string := "# Intro\nfoo\n"
  const OldBody: string := "\nold\n"
  const FooterPart: string := "# Footer\nbar"

  /**
   The section runs from the header up to the next line-start heading, which
   is kept together with everything after it; the text before is kept too.
   The new text carries no line break of its own at the end, so the heading
   that follows lands on its last line.
   */
  lemma ReplaceScenario()
    ensures UpdateReadmeSection(Some(IntroPart + SectionHeader + OldBody + FooterPart),
      SectionHeader + "\nnew", SectionHeader, false)
      == Written(IntroPart + (SectionHeader + "\nnew") + FooterPart)
  {
    var t := IntroPart + SectionHeader + OldBody + FooterPart;
    var k, e := |IntroPart|, |IntroPart| + |SectionHeader| + |OldBody|;
    ScenarioFirstHeader(t);
    ScenarioStop(t);
    ScenarioNoLaterHeader(t);
    PatchSingleSection(t, SectionHeader, SectionHeader + "\nnew", k, e);
    PartsSlices(IntroPart, SectionHeader, OldBody, FooterPart);
  }

  /** `UpdateReadmeSection` on a document with a single section. */
  lemma PatchSingleSection(t: string, header: string, md: string, k: nat, e: nat)
    requires |header| > 0
    requires FirstHeaderAt(t, header, 0, k)
    requires k + |header| <= e <= |t| && IsSectionStop(t, e)
    requires forall j :: k + |header| <= j < e ==> !IsSectionStop(t, j)
    requires forall j :: e <= j ==> !OccursAt(t, header, j)
    ensures UpdateReadmeSection(Some(t), md, header, false) == Written(t[..k] + md + t[e..])
  {
    assert Contains(t, header);
    SingleSection(t, header, md, k, e);
  }

  lemma PartsSlices(a: string, b: string, c: string, d: string)
    ensures (a + b + c + d)[..|a|] == a && (a + b + c + d)[|a| + |b| + |c|..] == d
  {
  }

  lemma ScenarioFirstHeader(t: string)
    requires t == IntroPart + SectionHeader + OldBody + FooterPart
    ensures FirstHeaderAt(t, SectionHeader, 0, |IntroPart|)
  {
    var k := |IntroPart|;
    assert t[k..k + |SectionHeader|] == SectionHeader;
    forall j | 0 <= j < k
      ensures !OccursAt(t, SectionHeader, j)
    {
      if OccursAt(t, SectionHeader, j) {
        HeaderStart(t, j);
        IntroHasNoDoubleHash(t, j);
        assert false;
      }
    }
  }

  lemma IntroHasNoDoubleHash(t: string, j: nat)
    requires t == IntroPart + SectionHeader + OldBody + FooterPart && j < |IntroPart|
    ensures t[j] != '#' || t[j + 1] != '#'
  {
    assert t[j] == IntroPart[j];
    assert t[j + 1] == (IntroPart + [SectionHeader[0]])[j + 1];
  }

  lemma ScenarioStop(t: string)
    requires t == IntroPart + SectionHeader + OldBody + FooterPart
    ensures var e := |IntroPart| + |SectionHeader| + |OldBody|;
      && e <= |t| && IsSectionStop(t, e)
      && forall j :: |IntroPart| + |SectionHeader| <= j < e ==> !IsSectionStop(t, j)
  {
    var b := |IntroPart| + |SectionHeader|;
    var e := b + |OldBody|;
    forall j | b <= j < e
      ensures !IsSectionStop(t, j)
    {
      assert t[j] == OldBody[j - b];
    }
    assert t[e] == FooterPart[0];
    assert t[e - 1] == OldBody[|OldBody| - 1];
  }

  lemma ScenarioNoLaterHeader(t: string)
    requires t == IntroPart + SectionHeader + OldBody + FooterPart
    ensures forall j :: |IntroPart| + |SectionHeader| + |OldBody| <= j ==> !OccursAt(t, SectionHeader, j)
  {
  }

  lemma HeaderStart(t: string, j: nat)
    requires OccursAt(t, SectionHeader, j)
    ensures t[j] == '#' && t[j + 1] == '#'
  {
    assert t[j..j + |SectionHeader|][0] == t[j];
    assert t[j..j + |SectionHeader|][1] == t[j + 1];
  }
}

=== FILE: records.dfy ===
/**
 The normalised statistics record every platform extractor returns, the
 configured profiles, and the uniform error record.
 */
module StatRecords {

  /** An optional value: a missing element, key or JSON null. */
  datatype Option<T> = None | Some(value: T)

  /** A record field that holds an integer in some cases and text ("N/A", a rank name) in others. */
  datatype Value = Int(n: int) | Str(s: string)

  /** The "not applicable" placeholder. */
  const NA: Value := Str("N/A")

  datatype Status = Active | Error

  datatype Platform = Codeforces | LeetCode | CodeChef | AtCoder | Cses

  /** The key under which the aggregator stores a platform's record. */
  function Key(p: Platform): string
  {
    match p
    case Codeforces => "codeforces"
    case LeetCode => "leetcode"
    case CodeChef => "codechef"
    case AtCoder => "atcoder"
    case Cses => "cses"
  }

  /** The display label written into a record's "platform" field. */
  function Label(p: Platform): string
  {
    match p
    case Codeforces => "Codeforces"
    case LeetCode => "LeetCode"
    case CodeChef => "CodeChef"
    case AtCoder => "AtCoder"
    case Cses => "CSES"
  }

  /** The five platform keys. */
  const PlatformKeys: set<string> := {"codeforces", "leetcode", "codechef", "atcoder", "cses"}

  /** The platform stored under a key. */
  function PlatformOf(k: string): (p: Platform)
    requires k in PlatformKeys
    ensures Key(p) == k
  {
    if k == "codeforces" then Codeforces
    else if k == "leetcode" then LeetCode
    else if k == "codechef" then CodeChef
    else if k == "atcoder" then AtCoder
    else Cses
  }

  /** The configured username for each platform key. */
  const Profiles: map<string, string> := map[
    "codeforces" := "dxnxsh06",
    "leetcode" := "dxnxsh06",
    "codechef" := "dxnxsh06",
    "atcoder" := "d_nex",
    "cses" := "334483"
  ]

  function ProfileUsername(p: Platform): string
  {
    Profiles[Key(p)]
  }

  /** Keys and labels identify platforms: distinct platforms never share either. */
  lemma KeysAndLabelsDistinct(p: Platform, q: Platform)
    requires p != q
    ensures Key(p) != Key(q) && Label(p) != Label(q)
    ensures Key(p) in PlatformKeys && Key(p) in Profiles
  {
  }

  /** The LeetCode-only fields; acceptance is kept as a whole number of tenths of a percent. */
  datatype LeetCodeDetail = LeetCodeDetail(easySolved: int, mediumSolved: int, hardSolved: int, acceptanceTenths: int)

  const NoDetail: LeetCodeDetail := LeetCodeDetail(0, 0, 0, 0)

  datatype StatRecord = StatRecord(
    platform: Platform,
    username: string,
    status: Status,
    rating: Value,
    maxRating: Value,
    rank: Value,
    problemsSolved: int,
    detail: Option<LeetCodeDetail>,
    lastUpdated: string)

  /** The placeholder shape every failed record takes. */
  predicate IsErrorShape(r: StatRecord)
  {
    && r.status == Error
    && r.rating == NA && r.maxRating == NA && r.rank == NA
    && r.problemsSolved == 0
    && (r.detail.None? || r.detail.value == NoDetail)
  }

  /** The record an extractor returns from any failure path (its `_get_error_stats`). */
  function ErrorRecord(p: Platform, username: string, now: string): (r: StatRecord)
    ensures IsErrorShape(r)
    ensures r.platform == p && r.username == username && r.lastUpdated == now
    ensures r.detail.Some? <==> p == LeetCode
  {
    StatRecord(p, username, Error, NA, NA, NA, 0,
               if p == LeetCode then Some(NoDetail) else None, now)
  }
}

=== FILE: rounding.dfy ===
/**
 Python's `round` applied to an exact rational: round to the nearest
 integer, ties to the even neighbour.
 */
module Rounding {

  /** The integer nearest to n / d, the even one on a tie (d > 0). */
  function RoundHalfEven(n: int, d: int): (r: int)
    requires d > 0
    ensures -d <= 2 * (n - d * r) <= d
    ensures 2 * (n - d * r) == d || 2 * (n - d * r) == -d ==> r % 2 == 0
  {
    var q := n / d;
    var m := n % d;
    assert n - d * (q + 1) == m - d;
    if 2 * m < d then q
    else if 2 * m > d then q + 1
    else if q % 2 == 0 then q
    else q + 1
  }

  lemma MulStrictMono(d: int, x: int, y: int)
    requires d > 0 && x < y
    ensures d * x < d * y
  {
    assert d * y - d * x == d * (y - x);
  }

  lemma MulMonoLe(d: int, x: int, y: int)
    requires d >= 0 && x <= y
    ensures d * x <= d * y
  {
    assert d * y - d * x == d * (y - x);
  }

  /** The two properties above pin the result down: no other integer has both. */
  lemma RoundHalfEvenUnique(n: int, d: int, r: int)
    requires d > 0
    requires -d <= 2 * (n - d * r) <= d
    requires 2 * (n - d * r) == d || 2 * (n - d * r) == -d ==> r % 2 == 0
    ensures r == RoundHalfEven(n, d)
  {
    var s := RoundHalfEven(n, d);
    var e := n - d * r;
    var f := n - d * s;
    assert d * (s - r) == e - f;
    if r < s {
      MulStrictMono(d, 0, s - r);
      if s - r >= 2 {
        MulStrictMono(d, 1, s - r);
      }
    } else if s < r {
      MulStrictMono(d, 0, r - s);
      if r - s >= 2 {
        MulStrictMono(d, 1, r - s);
      }
    }
  }
}
